=== FILE: README.md ===
# wire-mess-web chat core, modelled in Dafny

This project models the client-side chat core of wire-mess-web, a Next.js
messaging front end, and proves properties of that model. The core has three
parts:

- **The `useChat` hook** (`src/lib/hooks/useChat.js`). It keeps the per-conversation
  message timelines, the conversation summaries, the set of joined conversations and
  the active conversation. Its state updaters handle the push events (a message
  received, updated or deleted; a member's presence changing). Its actions are load,
  join, leave, send, update, delete and create. It also derives the active views.
- **`ChatHubService`** (`src/lib/services/chatHub.js`). It owns the single push
  connection and its `isConnected` flag. Every remote method is guarded by that flag.
  It also keeps the registry of application handlers: `on`, `off` and
  `notifyHandlers`, which isolates one handler's failure from the others.
- **The profile-update route** (`src/app/api/users/me/update/route.js`). It checks the
  `Authorization` header and validates the body's email and username. It trims the
  fields, drops the blank ones, and makes at most one backend call.

Modules:

- `common.dfy` (`Common`): `Option`, `Result`, `Outcome`.
- `timeline.dfy` (`Timeline`): the hook's entities, its pure state updaters and its views.
- `chat_hub.dfy` (`ChatHub`): the service's registry, dispatch, lifecycle, connect/disconnect and guarded invocations.
- `chat_session.dfy` (`ChatSession`): the hook's actions, sequencing guards, remote calls, REST results and updaters.
- `profile_update.dfy` (`ProfileUpdate`): ECMAScript `trim`, the email pattern and the `PUT` handler.

Modelling conventions:

- Ids and timestamps are integers.
- A JavaScript object keyed by conversation id is a `map`. An absent key reads as the
  empty timeline, as `prev[c] || []` does.
- A JavaScript `Set` of handlers is a duplicate-free sequence, because a `Set`
  iterates in insertion order.
- Handlers are compared by identity, modelled as a number.
- The environment is a parameter of each operation. This covers the outcomes of
  `connection.start()`, `connection.stop()` and `connection.invoke()`, the REST
  results, and the value in local storage.
- Every invocation the service issues is appended to the hub's `sent` log. So "no
  remote call was made" can be stated as an equality.

The model follows the code as written, including the places where the two sides of
a call disagree:

- **Update arguments out of order.** The hook calls `updateMessage(conversationId,
  messageId, newContent)`. The service's parameters are `(messageId, newContent,
  conversationId)`, so the invocation carries the arguments in that shifted order
  (`ChatSession.UpdateArgumentsOutOfOrder`).
- **Delete arguments swapped.** The hook calls `deleteMessage(conversationId,
  messageId)` against the parameters `(messageId, conversationId)`
  (`ChatSession.DeleteArgumentsSwapped`).
- **Presence handler never reached.** The hook registers a `UserOnlineStatusChanged`
  handler, but the service forwards no server event to it
  (`ChatSession.PresenceHandlerIsNeverReached`).
- **Delete event loses an argument.** The service forwards `MessageDeleted` with its
  single payload. The hook's handler expects `(messageId, conversationId)`, so no
  timeline changes (`ChatSession.DeletionEventChangesNoTimeline`).
- **Joined set outlives the connection.** The joined set is cleared only on unmount.
  After a dropped and restored connection, a rejoin is skipped
  (`ChatSession.StaleMembershipAfterReconnect`).
- **Leave only on success.** A leave removes the id only after the remote call
  succeeds (`ChatSession.LeaveAfterCloseKeepsMembership`).
- **Append, not sort.** A received message is appended at the tail, not sorted by
  creation time (`Timeline.ArrivalOrderIsNotTimeOrder`).

Some behaviour a reader might expect of a chat client is not what the code does. The
model follows the code in each case:

- Received messages are not inserted in time order; the code appends them.
- A leave does not forget the conversation whatever the outcome; the code forgets it
  only after a successful remote leave.
- Membership is not cleared when the connection drops; the code clears it only on
  unmount.
- History pages are not deduplicated at their boundary; the code concatenates them
  (`Timeline.OverlappingPagesDuplicate`).
- Switching conversations does not leave the previous one
  (`ChatSession.JoinDoesNotLeavePrevious`).
- Messages created over REST are not merged into the timeline; the code returns them
  to the caller (`ChatSession.SendMessage`).

## Model

| member | source | states |
|---|---|---|
| `Timeline.AppendIfNew` | src/lib/hooks/useChat.js:92-103 | a message whose id is already in its conversation's timeline leaves the whole map unchanged; otherwise the timeline grows by one, keeps its old messages as a prefix and ends with the message; only that conversation's key may change or appear |
| `Timeline.TouchSummaries` | src/lib/hooks/useChat.js:106-112 | every summary of the message's conversation gets the message as last message and its creation time as `updatedAt`; every other summary and the length are unchanged |
| `Timeline.HandleReceiveMessage` | src/lib/hooks/useChat.js:85-114 | receiving never loses or reorders a message already in a timeline (each old timeline is a prefix of the new one), the id of every payload message is present in its conversation's timeline afterwards (a known id does not replace the stored message), and the summary list keeps its length |
| `Timeline.ReceiveSingle` | src/lib/hooks/useChat.js:89-91 | a non-array payload is handled as a one-element array: one append and one summary update |
| `Timeline.ReceiveDuplicate` | src/lib/hooks/useChat.js:93-97 | a message with a known id leaves the timelines unchanged but still updates the summaries |
| `Timeline.ReceiveNew` | src/lib/hooks/useChat.js:98-102 | a message with a new id lands at the tail of its timeline, and no other timeline changes |
| `Timeline.ReceiveIdempotent` | src/lib/hooks/useChat.js:85-114 | receiving the same message twice has the effect of receiving it once |
| `Timeline.ReceiveAllConcat` | src/lib/hooks/useChat.js:91-113 | processing a concatenated batch is processing its parts one after the other |
| `Timeline.ReceiveBatchIsSequential` | src/lib/hooks/useChat.js:89-91 | an array payload has the effect of receiving its first message alone, then the rest |
| `Timeline.ReceivePreservesUnique` | src/lib/hooks/useChat.js:93-102 | receiving any batch keeps every timeline free of duplicate ids |
| `Timeline.ReceiveInArrivalOrder` | src/lib/hooks/useChat.js:98-102 | a batch of fresh messages of one conversation ends up at the tail in arrival order, whatever their creation times |
| `Timeline.ArrivalOrderIsNotTimeOrder` | src/lib/hooks/useChat.js:98-101 | two messages that arrive newest first stay newest first, so the timeline is not ordered by creation time |
| `Timeline.ReplaceById` | src/lib/hooks/useChat.js:121-123 | each position holds the update if its id matches, else the old message; the length is kept |
| `Timeline.HandleMessageUpdated` | src/lib/hooks/useChat.js:116-126 | the update replaces, in place, every message of its id in its conversation; the timeline keeps its length and other timelines are unchanged; an absent timeline materialises as empty |
| `Timeline.UpdateUnknownIdKeepsContents` | src/lib/hooks/useChat.js:121-123 | an update whose id is not in the timeline changes no message |
| `Timeline.UpdateIdempotent` | src/lib/hooks/useChat.js:116-126 | applying the same update twice is applying it once |
| `Timeline.UpdatePreservesUnique` | src/lib/hooks/useChat.js:121-123 | updating keeps the sequence of ids, so it keeps every timeline duplicate-free |
| `Timeline.RemoveId` | src/lib/hooks/useChat.js:133 | the filter keeps exactly the messages with another id, never grows the list, and is the identity when the id is absent |
| `Timeline.RemoveIdConcat` | src/lib/hooks/useChat.js:133 | filtering distributes over concatenation, so the survivors keep their relative order |
| `Timeline.HandleMessageDeleted` | src/lib/hooks/useChat.js:128-136 | the conversation's timeline keeps exactly its messages of other ids, other timelines are unchanged, and an absent id changes nothing |
| `Timeline.DeleteRemovesId` | src/lib/hooks/useChat.js:133 | after a delete no message of that id remains in the conversation |
| `Timeline.DeleteIdempotent` | src/lib/hooks/useChat.js:128-136 | deleting the same id twice is deleting it once |
| `Timeline.DeleteOnMissingKeyCreatesEmpty` | src/lib/hooks/useChat.js:130-133 | a delete for a conversation with no timeline writes an empty timeline for it |
| `Timeline.RemoveIdSubset` | src/lib/hooks/useChat.js:133 | filtering a duplicate-free timeline leaves it duplicate-free |
| `Timeline.DeletePreservesUnique` | src/lib/hooks/useChat.js:128-136 | deleting keeps every timeline duplicate-free |
| `Timeline.PatchRoster` | src/lib/hooks/useChat.js:153-157 | each roster entry is patched when its id is the user's and kept otherwise; the length is kept |
| `Timeline.HandleUserOnlineStatusChanged` | src/lib/hooks/useChat.js:148-160 | only rosters change; a summary without a roster keeps none; every roster keeps its length |
| `Timeline.OnlineStatusPatchesEntries` | src/lib/hooks/useChat.js:153-156 | a roster entry of that user gets the new presence and keeps its id and name; every other entry is unchanged |
| `Timeline.OnlineStatusIsPointwise` | src/lib/hooks/useChat.js:150-158 | the i-th summary of the result is the i-th summary patched |
| `Timeline.OnlineStatusOfStrangerIsNoOp` | src/lib/hooks/useChat.js:148-160 | a user who is in no roster leaves the summaries as they were |
| `Timeline.Reverse` | src/lib/hooks/useChat.js:189 | the reversed page has the same length, with position i holding the page's element counted from the end |
| `Timeline.ReverseConcat` | src/lib/hooks/useChat.js:189 | reversing a concatenation reverses the order of the parts |
| `Timeline.ApplyPage` | src/lib/hooks/useChat.js:189-202 | page 1 replaces the timeline with the reversed page; any other page puts the reversed page in front of the existing timeline; other timelines are unchanged |
| `Timeline.TwoPagesReverseTheStream` | src/lib/hooks/useChat.js:191-202 | loading page 1 and then page 2 leaves the reverse of the whole newest-first stream |
| `Timeline.PageOneIsAscending` | src/lib/hooks/useChat.js:187-196 | a newest-first first page becomes an oldest-first timeline |
| `Timeline.OverlappingPagesDuplicate` | src/lib/hooks/useChat.js:197-202 | a message on both sides of a page boundary ends up twice: nothing deduplicates |
| `Timeline.ActiveViewIgnoresOtherTimelines` | src/lib/hooks/useChat.js:321 | writing any timeline other than the active conversation's leaves the active view unchanged |
| `Timeline.ActiveViewAfterReceive` | src/lib/hooks/useChat.js:85-114 | a live message of the active conversation appears at the end of the view unless its id is already shown; a message of another conversation leaves the view unchanged |
| `Timeline.ActiveViewAfterUpdate` | src/lib/hooks/useChat.js:116-126 | an edit in the active conversation is replaced in place in the view; an edit elsewhere leaves the view unchanged |
| `Timeline.ActiveViewAfterDelete` | src/lib/hooks/useChat.js:128-136 | a delete in the active conversation removes exactly that id from the view; a delete elsewhere leaves the view unchanged |
| `Timeline.FindConversation` | src/lib/hooks/useChat.js:324-326 | no result exactly when no summary has the id; otherwise the first summary with that id |
| `Timeline.ActiveConversation` | src/lib/hooks/useChat.js:324-326 | a found summary is the first in the list that carries the active id; none is found when no id is active or no summary has it |
| `Timeline.CreatedConversationIsFound` | src/lib/hooks/useChat.js:312 | a created conversation is the one the active view finds for its id, even over an older entry with that id |
| `ChatHub.InitialIsValid` | src/lib/services/chatHub.js:6-10 | the freshly constructed service has no connection, a lowered flag and an empty registry, which satisfies the invariant |
| `ChatHub.Without` | src/lib/services/chatHub.js:174 | `Set.delete` keeps exactly the other handlers, is the identity when the handler is absent, and keeps the set duplicate-free |
| `ChatHub.On` | src/lib/services/chatHub.js:163-169 | the event's set gains the handler (unchanged if already there) and is created when absent; other events are untouched; the unsubscriber captures event and handler |
| `ChatHub.Off` | src/lib/services/chatHub.js:171-176 | an unknown event or unregistered handler changes nothing; otherwise exactly that handler leaves the event's set; keys and other events are kept |
| `ChatHub.WithoutConcat` | src/lib/services/chatHub.js:174 | `Set.delete` distributes over concatenation, so the remaining handlers keep their insertion order |
| `ChatHub.OffKeepsOrder` | src/lib/services/chatHub.js:171-176 | removing a handler leaves the handlers registered before and after it, in that order |
| `ChatHub.OnTwice` | src/lib/services/chatHub.js:164-167 | registering the same handler twice is registering it once |
| `ChatHub.WithoutAppended` | src/lib/services/chatHub.js:167-174 | deleting a handler just added to a set that lacked it restores the set |
| `ChatHub.UnsubscribeUndoesOn` | src/lib/services/chatHub.js:168 | the function `on` returns undoes the registration; an event seen for the first time keeps an empty set |
| `ChatHub.Deliveries` | src/lib/services/chatHub.js:178-189 | reference dispatch: every handler of the event, in order, called once with the single argument `data` |
| `ChatHub.NotifyHandlers` | src/lib/services/chatHub.js:178-189 | the loop calls exactly the reference sequence of handlers, each with `[data]`, whichever of them throw; an unknown event calls nobody |
| `ChatHub.ForwardedEvent` | src/lib/services/chatHub.js:82-113 | exactly six server methods are forwarded, and none of them to `UserOnlineStatusChanged` |
| `ChatHub.OnClose` | src/lib/services/chatHub.js:63-67 | lowers the flag, changes nothing else, notifies `connectionClosed` with the error, and keeps the invariant |
| `ChatHub.OnReconnecting` | src/lib/services/chatHub.js:69-73 | lowers the flag, changes nothing else, notifies `reconnecting`, and keeps the invariant |
| `ChatHub.OnReconnected` | src/lib/services/chatHub.js:75-79 | raises the flag on a built connection, changes nothing else, notifies `reconnected`, and keeps the invariant |
| `ChatHub.CloseThenReconnect` | src/lib/services/chatHub.js:62-80 | a drop followed by an automatic reconnect restores the flag and leaves connection, registry and invocation log as they were |
| `ChatHub.LifecycleCallback` | src/lib/services/chatHub.js:63-79 | a lifecycle notification reaches exactly the handlers registered for its event, in order, each with its payload (`{ error }` or `{ connectionId }`) as its one argument |
| `ChatHub.Connect` | src/lib/services/chatHub.js:27-60 | already connected: no effect; no truthy token from the argument or storage: throws and changes nothing; otherwise a connection built with the argument token in preference to the stored one, the flag raised exactly when `start` succeeds, its failure rethrown; the registry and log are kept |
| `ChatHub.Disconnect` | src/lib/services/chatHub.js:191-197 | without a connected connection nothing happens; otherwise a successful `stop` lowers the flag, and a failed one leaves the hub as it was and throws |
| `ChatHub.Invoke` | src/lib/services/chatHub.js:116-119 | not connected: throws and issues nothing; connected: issues exactly the call, and succeeds exactly when the server does |
| `ChatHub.ParseNatToString` | src/lib/services/chatHub.js:119 | the decimal spelling of a natural number reads back as that number and has no sign |
| `ChatHub.IdStringRoundTrip` | src/lib/services/chatHub.js:119 | the string id a join or leave sends reads back as the numeric id, negative ones included |
| `ChatHub.JoinConversation` | src/lib/services/chatHub.js:115-121 | guarded; issues `JoinConversation` with the id as a string; succeeds exactly when connected and the server accepts |
| `ChatHub.LeaveConversation` | src/lib/services/chatHub.js:123-129 | guarded; issues `LeaveConversation` with the id as a string; succeeds exactly when connected and the server accepts |
| `ChatHub.SendMessage` | src/lib/services/chatHub.js:136-147 | guarded; issues `SendMessage` with one record of conversation id and content |
| `ChatHub.UpdateMessage` | src/lib/services/chatHub.js:149-154 | guarded; issues `UpdateMessage` with its three parameters in declaration order |
| `ChatHub.DeleteMessage` | src/lib/services/chatHub.js:156-161 | guarded; issues `DeleteMessage` with its two parameters in declaration order |
| `ChatHub.ClosedHubInvokesNothing` | src/lib/services/chatHub.js:115-161 | after `onclose` every remote method throws "not connected" and nothing is issued |
| `ChatSession.SubscribeAll` | src/lib/hooks/useChat.js:50-55 | after the six `on` calls each callback is registered for its event, nothing registered before is lost, and the registry stays duplicate-free |
| `ChatSession.UnsubscribeAll` | src/lib/hooks/useChat.js:72-77 | after the six `off` calls no callback is registered for its event, nothing is added, and the event keys are kept |
| `ChatSession.SubscribeAllNoOp` | src/lib/hooks/useChat.js:50-55 | subscribing pairs that are all registered already changes nothing |
| `ChatSession.SubscribeAllTwice` | src/lib/hooks/useChat.js:50-55 | a retried mount does not register any callback twice |
| `ChatSession.Mount` | src/lib/hooks/useChat.js:33-66 | without a stored token, or after an attempt, nothing happens; otherwise the callbacks are registered first; the hook's flag, the service's flag and the attempt marker agree after the connect, and a failure records its error and allows a retry |
| `ChatSession.FirstMount` | src/lib/hooks/useChat.js:32-66 | the first mount over a freshly constructed service is connected exactly when `start` succeeds, has invoked no remote method, and has nothing joined, active or loaded |
| `ChatSession.Unmount` | src/lib/hooks/useChat.js:71-81 | the callbacks are unregistered, the joined set is emptied, a new attempt is allowed, and a successful stop lowers the service's flag |
| `ChatSession.HubClosed` | src/lib/services/chatHub.js:63-67 | a dropped connection lowers the service's flag and changes nothing else in the session or the service |
| `ChatSession.HubReconnected` | src/lib/services/chatHub.js:75-79 | a restored connection raises the service's flag and changes nothing else in the session or the service |
| `ChatSession.CloseKeepsMembership` | src/lib/hooks/useChat.js:79 | a dropped connection keeps the joined set and the hook's own flag |
| `ChatSession.LoadConversations` | src/lib/hooks/useChat.js:163-175 | success replaces the summaries and returns the list; failure rethrows and changes nothing |
| `ChatSession.LoadMessages` | src/lib/hooks/useChat.js:178-212 | failure rethrows and leaves the timelines alone; success returns the raw page and applies it reversed, replacing on page 1 and prepending otherwise |
| `ChatSession.CreateConversation` | src/lib/hooks/useChat.js:309-318 | success puts the created summary in front and returns it; failure rethrows and changes nothing |
| `ChatSession.JoinConversation` | src/lib/hooks/useChat.js:215-239 | no effect when the hook thinks it is disconnected or the id is joined; a join on a closed service throws and issues nothing; a refused join is issued to the server, throws its rejection and records nothing; whenever the service is connected it changes only by logging the join; a successful one records the id, makes it active and loads page 1 only when no timeline exists, and a failed load is rethrown after the id was recorded |
| `ChatSession.LeaveConversation` | src/lib/hooks/useChat.js:242-256 | no effect when the hook thinks it is disconnected; a leave on a closed service throws and issues nothing; a refused leave is issued, throws its rejection and keeps the id; whenever the service is connected it changes only by logging the leave; a successful one drops it and clears the active id only if it was active |
| `ChatSession.LeaveAfterCloseKeepsMembership` | src/lib/hooks/useChat.js:245-247 | a leave after the connection dropped throws and the id stays joined |
| `ChatSession.JoinAfterCloseThrows` | src/lib/hooks/useChat.js:226-228 | a join after the connection dropped throws and records nothing |
| `ChatSession.StaleMembershipAfterReconnect` | src/lib/hooks/useChat.js:221-224 | after a drop and a reconnect an old id is still joined, so joining it again issues no remote join |
| `ChatSession.JoinDoesNotLeavePrevious` | src/lib/hooks/useChat.js:226-229 | joining a second conversation keeps the first joined and makes the second active |
| `ChatSession.SendMessage` | src/lib/hooks/useChat.js:259-282 | never touches the timelines; with an attachment returns the REST result without any push call; without one the service changes only by logging `SendMessage` with one record of conversation id and content, returns nothing, and succeeds exactly when connected and accepted |
| `ChatSession.SendPathsAreSeparate` | src/lib/hooks/useChat.js:262-275 | the text path ignores the REST result and the attachment path ignores the push reply |
| `ChatSession.UpdateMessage` | src/lib/hooks/useChat.js:285-294 | guarded by the service; when connected the service changes only by logging `UpdateMessage` with the conversation id, message id and content in that order; succeeds exactly when connected and accepted |
| `ChatSession.DeleteMessage` | src/lib/hooks/useChat.js:297-306 | guarded by the service; when connected the service changes only by logging `DeleteMessage` with the conversation id first and the message id second; succeeds exactly when connected and accepted |
| `ChatSession.UpdateArgumentsOutOfOrder` | src/lib/hooks/useChat.js:288 | the update the hook issues differs from the one the service's parameter names describe |
| `ChatSession.DeleteArgumentsSwapped` | src/lib/hooks/useChat.js:300 | whenever the two ids differ, the delete the hook issues differs from the one the service's parameter names describe |
| `ChatSession.PresenceHandlerIsNeverReached` | src/lib/hooks/useChat.js:55 | the presence callback is registered but no server event is forwarded to its event |
| `ChatSession.TimelineKey` | src/lib/hooks/useChat.js:130 | a number names its own timeline, a string only the id it spells, and a record none |
| `ChatSession.SpelledIdIsSameKey` | src/lib/hooks/useChat.js:130 | an id's decimal spelling reads the same timeline as the id |
| `ChatSession.DeliverMessageDeleted` | src/lib/hooks/useChat.js:128-136 | called with fewer than two arguments the handler changes no timeline; with two numbers it is the delete updater; with a non-number message id no existing message goes |
| `ChatSession.DeletionEventChangesNoTimeline` | src/lib/services/chatHub.js:94-97 | whatever payload the server sends with `MessageDeleted`, no handler call the service makes removes a message from any timeline |
| `ChatSession.ScenarioOpen` | src/lib/hooks/useChat.js:229-234 | opening an unloaded conversation makes it active and shows its first page oldest first |
| `ChatSession.ScenarioDelete` | src/lib/hooks/useChat.js:133 | deleting the second of four messages leaves the other three in order |
| `ChatSession.OpenReceiveDeleteScenario` | src/lib/hooks/useChat.js:321 | the active view goes from the loaded page to the page plus a live message, then loses exactly the deleted message |
| `ProfileUpdate.Trim` | src/app/api/users/me/update/route.js:39-40 | the result is the infix of the input with only whitespace before and after it, and with no whitespace at either end |
| `ProfileUpdate.TrimTrimmed` | src/app/api/users/me/update/route.js:40 | a string with no whitespace at either end is its own trim |
| `ProfileUpdate.TrimNoSpace` | src/app/api/users/me/update/route.js:43 | a string without whitespace is its own trim |
| `ProfileUpdate.TrimBlank` | src/app/api/users/me/update/route.js:39 | a string trims to "" exactly when it is all whitespace |
| `ProfileUpdate.TrimIdempotent` | src/app/api/users/me/update/route.js:40 | trimming twice is trimming once |
| `ProfileUpdate.Utf16Length` | src/app/api/users/me/update/route.js:30 | `.length` counts UTF-16 code units: between one and two per character |
| `ProfileUpdate.MatchesEmailPattern` | src/app/api/users/me/update/route.js:20 | an address the pattern accepts is at least five characters long, as in `x@y.z`, and neither starts nor ends with `@` or whitespace |
| `ProfileUpdate.MatchHasNoSpace` | src/app/api/users/me/update/route.js:20 | a matching address contains no whitespace |
| `ProfileUpdate.MatchingEmailIsTrimmed` | src/app/api/users/me/update/route.js:42-43 | a matching address is its own trim, so the checked and the forwarded email agree |
| `ProfileUpdate.MatchingEmailHasOneAt` | src/app/api/users/me/update/route.js:20 | a matching address has exactly one `@` |
| `ProfileUpdate.LeadingSpaceNeverMatches` | src/app/api/users/me/update/route.js:20 | an address that starts with whitespace never matches |
| `ProfileUpdate.VisibleIsNonBlank` | src/app/api/users/me/update/route.js:19 | one visible character makes a field count as provided |
| `ProfileUpdate.KeepTrimmed` | src/app/api/users/me/update/route.js:39-50 | a field is kept exactly when it is present and non-blank, and then as its non-empty trim |
| `ProfileUpdate.BuildUpdateData` | src/app/api/users/me/update/route.js:38-50 | a key of `updateData` is present exactly when its field is non-blank, every present value is non-empty and trimmed, and each present value is the trim of its field |
| `ProfileUpdate.KeepTrimmedIdempotent` | src/app/api/users/me/update/route.js:39-41 | filtering and trimming a kept field again changes nothing |
| `ProfileUpdate.BuildUpdateDataIdempotent` | src/app/api/users/me/update/route.js:38-50 | rebuilding the record from a forwarded record forwards the same record |
| `ProfileUpdate.ServerError` | src/app/api/users/me/update/route.js:69-74 | status 500 with the error's message, or the fallback text when the message is empty |
| `ProfileUpdate.Put` | src/app/api/users/me/update/route.js:3-75 | 401 without a header; 500 for an unreadable body; then 400 for a bad email, then for a short username, then for no fields, in that order and with no call; otherwise exactly one `PUT /users/me/update` carrying the header and the cleaned fields, answered 200 with the backend's JSON or 500 with its error |
| `ProfileUpdate.ForwardedDataIsClean` | src/app/api/users/me/update/route.js:37-66 | whatever reaches the backend has at least one field, every field trimmed and non-blank, a well-formed email and a username of at least three code units |
| `ProfileUpdate.ValidatedDataIsClean` | src/app/api/users/me/update/route.js:18-50 | the record built from a body that passed both checks is clean |
| `ProfileUpdate.ValidatedEmailIsClean` | src/app/api/users/me/update/route.js:42-44 | a provided email that passed the check is forwarded as a matching address |
| `ProfileUpdate.PaddedEmailIsRefused` | src/app/api/users/me/update/route.js:19-27 | a valid address behind a leading blank is refused with 400, because the check sees the untrimmed string |
| `ProfileUpdate.AuthorizationComesFirst` | src/app/api/users/me/update/route.js:8-13 | without a header the answer is 401, whatever the body and backend would do |
| `ProfileUpdate.BlankFieldsAreIgnored` | src/app/api/users/me/update/route.js:37-58 | blank fields skip validation and are dropped, so a blank-only body gets "No fields to update" |

## Left out

- The SignalR transport is left out: the hub URL, logging, the automatic reconnect schedule (`[0, 2000, 5000, 10000, 30000]`) and when callbacks fire. A lifecycle callback is an operation the caller applies.
- React rendering is left out: effect timing, `useCallback` dependency lists and the stale closures they create. An example is the `messages` value `joinConversation` reads, which is modelled as the current state.
- The loading flags are left out (`isLoadingConversations`, `isLoadingMessages`, `isSendingMessage`). They affect no other state.
- Concurrency is left out: interleaved awaits and updater batching. Each action runs to completion on the current state.
- `handleUserJoined`, `handleUserLeft` and the logging in every handler are left out. They only write to the console.
- `getAccessToken`'s `window` check is folded into the `storedToken` parameter.
- The remote services (`conversationService`, `messageService`, `fetchAPI`) are not part of this model. Their results are parameters.
- ChatHub.IntToString: JavaScript number width is not modelled. Ids are unbounded integers; `toString` and `parseInt` agree with the decimal spelling only for ids within the safe-integer range, beyond which the source loses precision or switches to exponent notation. ChatSession.TimelineKey inherits this.
- ChatHub.SendMessage: `parseInt(conversationId, 10)` is not modelled. The id is already an integer.
- ChatSession.DeliverMessageDeleted: the empty entry written under a non-numeric key, such as "undefined", is not represented. `Timelines` only holds numeric keys.
- ChatHub.Connect: a failure while building the connection object is not modelled. Only `start` can fail.
- ProfileUpdate.Put: body fields that are not strings are not modelled. Each field is absent or a string; in the source, a non-string truthy field makes `trim` throw and the route answer 500.
- ProfileUpdate.Put: the regular expression engine is not modelled. `MatchesEmailPattern` states what the anchored pattern accepts.
- Profile-form construction on the client is not part of this model.
- `chatHub.js` also registers the hub's own `Error` event. Its payload is wrapped as `{ message }` before it is forwarded. Only the forwarding is modelled.

=== FILE: chat_hub.dfy ===
/**
  `ChatHubService`: the single push connection, its `isConnected` flag, the guard in
  front of every remote invocation, and the registry of application handlers.

  The SignalR connection is an environment: building it records the token it will
  authenticate with, and every call into it (`start`, `stop`, `invoke`) takes its
  outcome as a parameter. Each issued `invoke` is appended to `sent`, so "no remote
  call was made" is an equality on the hub.
 */
module ChatHub {
  import opened Common

  type EventName = string

  /** The identity of a registered callback; handlers are compared by identity. */
  type Handler = nat

  /** The application-level events of the registry. */
  const ReceiveMessage: EventName := "ReceiveMessage"
  const MessageUpdated: EventName := "MessageUpdated"
  const MessageDeleted: EventName := "MessageDeleted"
  const UserJoined: EventName := "UserJoined"
  const UserLeft: EventName := "UserLeft"
  const UserOnlineStatusChanged: EventName := "UserOnlineStatusChanged"
  const HubErrorEvent: EventName := "Error"
  const ConnectionClosed: EventName := "connectionClosed"
  const Reconnecting: EventName := "reconnecting"
  const Reconnected: EventName := "reconnected"

  /** A positional argument of a remote invocation, as the JavaScript value it is. */
  datatype Value =
    | Num(n: int)
    | Text(s: string)
    | MessageDto(conversationId: int, content: Option<string>)

  datatype Invocation = Invocation(methodName: string, args: seq<Value>)

  /** A built `HubConnection`; its token factory always answers `token`. */
  datatype Connection = Connection(token: string)

  datatype HubError =
    | NoAccessToken
    | NotConnected
    | StartFailed(reason: string)
    | Rejected(reason: string)
    | StopFailed(reason: string)

  /** `Map<event, Set<handler>>`; a JavaScript `Set` iterates in insertion order. */
  type Registry = map<EventName, seq<Handler>>

  datatype Hub = Hub(
    connection: Option<Connection>,
    isConnected: bool,
    registry: Registry,
    sent: seq<Invocation>)

  datatype HubStep = HubStep(hub: Hub, outcome: Outcome<HubError>)

  /** The service as constructed: no connection, not connected, no handlers. */
  const Initial: Hub := Hub(None, false, map[], [])

  predicate Distinct(hs: seq<Handler>)
  {
    forall i, j :: 0 <= i < j < |hs| ==> hs[i] != hs[j]
  }

  predicate WellFormed(r: Registry)
  {
    forall e :: e in r ==> Distinct(r[e])
  }

  /** The flag is only ever raised on a built connection, and no handler is in a set twice. */
  predicate Valid(h: Hub)
  {
    && WellFormed(h.registry)
    && (h.isConnected ==> h.connection.Some?)
  }

  lemma InitialIsValid()
    ensures Valid(Initial)
  {
  }

  // ---------------------------------------------------------------------------
  // Handler registry: on / off / notifyHandlers
  // ---------------------------------------------------------------------------

  function HandlersFor(r: Registry, e: EventName): seq<Handler>
  {
    if e in r then r[e] else []
  }

  /** `Set.delete`: drop `h`, keep the order of the rest. */
  function Without(hs: seq<Handler>, h: Handler): (r: seq<Handler>)
    ensures forall x :: x in r <==> x in hs && x != h
    ensures h !in hs ==> r == hs
    ensures Distinct(hs) ==> Distinct(r)
  {
    if hs == [] then []
    else
      var rest := Without(hs[1..], h);
      assert hs == [hs[0]] + hs[1..];
      if hs[0] == h then rest
      else
        assert Distinct(hs) ==> hs[0] !in hs[1..];
        [hs[0]] + rest
  }

  /** The unsubscribe function `on` hands back; it captured the event and the handler. */
  datatype Unsubscribe = Unsubscribe(event: EventName, handler: Handler)

  /** `on(event, handler)`: create the set if absent, add the handler, return its unsubscriber. */
  function On(r: Registry, e: EventName, h: Handler): (res: (Registry, Unsubscribe))
    ensures e in res.0 && h in res.0[e]
    ensures forall x :: x in res.0[e] <==> x in HandlersFor(r, e) || x == h
    ensures forall k :: k in r && k != e ==> k in res.0 && res.0[k] == r[k]
    ensures res.0.Keys == r.Keys + {e}
    ensures h in HandlersFor(r, e) ==> res.0 == r
    ensures h !in HandlersFor(r, e) ==> res.0[e] == HandlersFor(r, e) + [h]
    ensures WellFormed(r) ==> WellFormed(res.0)
    ensures res.1 == Unsubscribe(e, h)
  {
    var hs := HandlersFor(r, e);
    (r[e := if h in hs then hs else hs + [h]], Unsubscribe(e, h))
  }

  /** `off(event, handler)`: remove the handler from the event's set, if there is one. */
  function Off(r: Registry, e: EventName, h: Handler): (r': Registry)
    ensures e !in r ==> r' == r
    ensures h !in HandlersFor(r, e) ==> r' == r
    ensures r'.Keys == r.Keys
    ensures forall k :: k in r && k != e ==> r'[k] == r[k]
    ensures e in r ==> forall x :: x in r'[e] <==> x in r[e] && x != h
    ensures e in r ==> r'[e] == Without(r[e], h)
    ensures WellFormed(r) ==> WellFormed(r')
  {
    if e in r then r[e := Without(r[e], h)] else r
  }

  /** `Set.delete` keeps the survivors in insertion order: it distributes over concatenation. */
  lemma {:induction false} WithoutConcat(a: seq<Handler>, b: seq<Handler>, h: Handler)
    ensures Without(a + b, h) == Without(a, h) + Without(b, h)
  {
    if a == [] {
      assert a + b == b;
    } else {
      assert (a + b)[0] == a[0];
      assert (a + b)[1..] == a[1..] + b;
      WithoutConcat(a[1..], b, h);
    }
  }

  lemma WithoutSingle(h: Handler)
    ensures Without([h], h) == []
  {
    assert [h][1..] == [];
  }

  lemma WithoutMiddle(a: seq<Handler>, h: Handler, b: seq<Handler>)
    requires h !in a && h !in b
    ensures Without(a + [h] + b, h) == a + b
  {
    assert Without(a + [h], h) == a by {
      WithoutConcat(a, [h], h);
      WithoutSingle(h);
    }
    assert Without(b, h) == b;
    WithoutConcat(a + [h], b, h);
  }

  /** `off` keeps the other handlers of the event in their registration order. */
  lemma OffKeepsOrder(r: Registry, e: EventName, h: Handler, a: seq<Handler>, b: seq<Handler>)
    requires e in r && r[e] == a + [h] + b && h !in a && h !in b
    ensures Off(r, e, h)[e] == a + b
  {
    WithoutMiddle(a, h, b);
    assert Off(r, e, h) == r[e := Without(r[e], h)];
  }

  /** Calling the function `on` returned. */
  function RunUnsubscribe(r: Registry, u: Unsubscribe): Registry
  {
    Off(r, u.event, u.handler)
  }

  /** Registering the same handler twice is registering it once. */
  lemma OnTwice(r: Registry, e: EventName, h: Handler)
    ensures On(On(r, e, h).0, e, h).0 == On(r, e, h).0
  {
  }

  lemma {:induction false} WithoutAppended(hs: seq<Handler>, h: Handler)
    requires h !in hs
    ensures Without(hs + [h], h) == hs
  {
    if hs == [] {
      assert [] + [h] == [h];
      assert Without([h], h) == Without([h][1..], h);
      assert [h][1..] == [];
    } else {
      assert (hs + [h])[1..] == hs[1..] + [h];
      assert (hs + [h])[0] == hs[0];
      WithoutAppended(hs[1..], h);
      assert hs == [hs[0]] + hs[1..];
    }
  }

  /**
    The unsubscriber `on` returns undoes the registration of a new handler: the registry
    is as before, except that an event seen for the first time keeps an empty set.
   */
  lemma UnsubscribeUndoesOn(r: Registry, e: EventName, h: Handler)
    requires h !in HandlersFor(r, e)
    ensures var (r1, u) := On(r, e, h);
            RunUnsubscribe(r1, u) == r[e := HandlersFor(r, e)]
    ensures e in r ==> RunUnsubscribe(On(r, e, h).0, On(r, e, h).1) == r
  {
    var hs := HandlersFor(r, e);
    var r1 := r[e := hs + [h]];
    assert On(r, e, h) == (r1, Unsubscribe(e, h));
    WithoutAppended(hs, h);
    assert RunUnsubscribe(r1, Unsubscribe(e, h)) == r1[e := hs];
    assert r1[e := hs] == r[e := hs];
    if e in r {
      assert r[e := hs] == r;
    }
  }

  /** What one handler call did: handlers never see an exception of another. */
  datatype Delivery<D> = Delivery(handler: Handler, args: seq<D>, threw: bool)

  /** The reference meaning of dispatch: every handler in order, each called with `data`. */
  function Deliveries<D>(hs: seq<Handler>, data: D, throws: (Handler, D) -> bool): (r: seq<Delivery<D>>)
    ensures |r| == |hs|
    ensures forall i :: 0 <= i < |hs| ==> r[i] == Delivery(hs[i], [data], throws(hs[i], data))
  {
    if hs == [] then [] else [Delivery(hs[0], [data], throws(hs[0], data))] + Deliveries(hs[1..], data, throws)
  }

  /**
    `notifyHandlers(event, data)`: call each handler of the event with the single argument
    `data`, catching what it throws. `throws` says which calls throw; no exception escapes,
    so the method has no failure result.
   */
  method NotifyHandlers<D>(r: Registry, e: EventName, data: D, throws: (Handler, D) -> bool)
    returns (log: seq<Delivery<D>>)
    ensures log == Deliveries(HandlersFor(r, e), data, throws)
    ensures |log| == |HandlersFor(r, e)|
    ensures e !in r ==> log == []
    ensures forall i :: 0 <= i < |log| ==> log[i].args == [data]
  {
    log := [];
    if e in r {
      var hs := r[e];
      var i := 0;
      while i < |hs|
        invariant 0 <= i <= |hs|
        invariant |log| == i
        invariant forall k :: 0 <= k < i ==> log[k] == Delivery(hs[k], [data], throws(hs[k], data))
      {
        var threw := throws(hs[i], data);
        log := log + [Delivery(hs[i], [data], threw)];
        i := i + 1;
      }
    }
  }

  // ---------------------------------------------------------------------------
  // Server events and lifecycle callbacks
  // ---------------------------------------------------------------------------

  /**
    The hub methods `setupHubHandlers` subscribes to on the connection, and the registry
    event each is forwarded to with its one argument.
   */
  function ForwardedEvent(serverMethod: string): (r: Option<EventName>)
    ensures r != Some(UserOnlineStatusChanged)
    ensures r.Some? <==> serverMethod in {"ReceiveMessage", "MessageUpdated", "MessageDeleted",
                                         "UserJoinedConversation", "UserLeftConversation", "Error"}
  {
    if serverMethod == "ReceiveMessage" then Some(ReceiveMessage)
    else if serverMethod == "MessageUpdated" then Some(MessageUpdated)
    else if serverMethod == "MessageDeleted" then Some(MessageDeleted)
    else if serverMethod == "UserJoinedConversation" then Some(UserJoined)
    else if serverMethod == "UserLeftConversation" then Some(UserLeft)
    else if serverMethod == "Error" then Some(HubErrorEvent)
    else None
  }

  /** The data a lifecycle callback hands to `notifyHandlers`. */
  datatype LifecycleInfo =
    | ClosedInfo(closeError: Option<string>)
    | ReconnectingInfo(reconnectError: Option<string>)
    | ReconnectedInfo(connectionId: Option<string>)

  datatype Notification = Notification(event: EventName, info: LifecycleInfo)

  /** `onclose`: lower the flag, then notify `connectionClosed`. */
  function OnClose(h: Hub, error: Option<string>): (r: (Hub, Notification))
    ensures !r.0.isConnected
    ensures r.0 == h.(isConnected := false)
    ensures r.1 == Notification(ConnectionClosed, ClosedInfo(error))
    ensures Valid(h) ==> Valid(r.0)
  {
    (h.(isConnected := false), Notification(ConnectionClosed, ClosedInfo(error)))
  }

  /** `onreconnecting`: lower the flag, then notify `reconnecting`. */
  function OnReconnecting(h: Hub, error: Option<string>): (r: (Hub, Notification))
    ensures r.0 == h.(isConnected := false)
    ensures r.1 == Notification(Reconnecting, ReconnectingInfo(error))
    ensures Valid(h) ==> Valid(r.0)
  {
    (h.(isConnected := false), Notification(Reconnecting, ReconnectingInfo(error)))
  }

  /** `onreconnected`: raise the flag, then notify `reconnected`. Only a built connection reconnects. */
  function OnReconnected(h: Hub, connectionId: Option<string>): (r: (Hub, Notification))
    requires h.connection.Some?
    ensures r.0 == h.(isConnected := true)
    ensures r.1 == Notification(Reconnected, ReconnectedInfo(connectionId))
    ensures Valid(h) ==> Valid(r.0)
  {
    (h.(isConnected := true), Notification(Reconnected, ReconnectedInfo(connectionId)))
  }

  /**
    A drop followed by an automatic reconnect restores the flag and leaves the connection,
    the registry and the invocation log as they were.
   */
  lemma CloseThenReconnect(h: Hub, error: Option<string>, connectionId: Option<string>)
    requires h.connection.Some?
    ensures OnReconnected(OnClose(h, error).0, connectionId).0 == h.(isConnected := true)
  {
  }

  /**
    A lifecycle callback reaches exactly the handlers registered for its event, each with
    the notification's payload (`{ error }` or `{ connectionId }`) as its one argument.
   */
  method LifecycleCallback(h: Hub, n: Notification, throws: (Handler, LifecycleInfo) -> bool)
    returns (log: seq<Delivery<LifecycleInfo>>)
    ensures |log| == |HandlersFor(h.registry, n.event)|
    ensures forall i :: 0 <= i < |log| ==>
              log[i].handler == HandlersFor(h.registry, n.event)[i] && log[i].args == [n.info]
  {
    log := NotifyHandlers(h.registry, n.event, n.info, throws);
  }

  // ---------------------------------------------------------------------------
  // connect / disconnect
  // ---------------------------------------------------------------------------

  /** JavaScript truthiness of an optional string: absent and `""` are both false. */
  predicate Truthy(s: Option<string>)
  {
    s.Some? && s.value != ""
  }

  /**
    `connect(accessToken)`. `storedToken` is what `getAccessToken` reads from local
    storage; `start` is the outcome of `connection.start()`.
   */
  function Connect(h: Hub, accessToken: Option<string>, storedToken: Option<string>, start: Outcome<string>)
    : (r: HubStep)
    ensures h.isConnected ==> r == HubStep(h, Pass)
    ensures !h.isConnected && !Truthy(accessToken) && !Truthy(storedToken) ==>
              r == HubStep(h, Fail(NoAccessToken))
    ensures !h.isConnected && (Truthy(accessToken) || Truthy(storedToken)) ==>
              && r.hub.connection == Some(Connection(if Truthy(accessToken) then accessToken.value
                                                     else storedToken.value))
              && (r.hub.isConnected <==> start.Pass?)
              && r.hub.registry == h.registry
              && r.hub.sent == h.sent
              && (start.Pass? ==> r.outcome == Pass)
              && (start.Fail? ==> r.outcome == Fail(StartFailed(start.error)))
    ensures Valid(h) ==> Valid(r.hub)
  {
    if h.isConnected then HubStep(h, Pass)
    else
      var token := if Truthy(accessToken) then accessToken else storedToken;
      if !Truthy(token) then HubStep(h, Fail(NoAccessToken))
      else
        var built := h.(connection := Some(Connection(token.value)));
        match start
        case Pass => HubStep(built.(isConnected := true), Pass)
        case Fail(e) => HubStep(built.(isConnected := false), Fail(StartFailed(e)))
  }

  /** `disconnect()`: stop and lower the flag only when connected; `stop` is `connection.stop()`. */
  function Disconnect(h: Hub, stop: Outcome<string>): (r: HubStep)
    ensures !(h.connection.Some? && h.isConnected) ==> r == HubStep(h, Pass)
    ensures h.connection.Some? && h.isConnected && stop.Pass? ==>
              r == HubStep(h.(isConnected := false), Pass)
    ensures h.connection.Some? && h.isConnected && stop.Fail? ==>
              r == HubStep(h, Fail(StopFailed(stop.error)))
    ensures Valid(h) ==> Valid(r.hub)
  {
    if h.connection.Some? && h.isConnected then
      match stop
      case Pass => HubStep(h.(isConnected := false), Pass)
      case Fail(e) => HubStep(h, Fail(StopFailed(e)))
    else HubStep(h, Pass)
  }

  // ---------------------------------------------------------------------------
  // Guarded remote invocations
  // ---------------------------------------------------------------------------

  /** The guard every remote method shares: throw without invoking unless connected. */
  function Invoke(h: Hub, call: Invocation, reply: Outcome<string>): (r: HubStep)
    ensures !h.isConnected ==> r == HubStep(h, Fail(NotConnected))
    ensures h.isConnected ==> r.hub == h.(sent := h.sent + [call])
    ensures h.isConnected ==> (r.outcome == Pass <==> reply == Pass)
    ensures h.isConnected && reply.Fail? ==> r.outcome == Fail(Rejected(reply.error))
    ensures Valid(h) ==> Valid(r.hub)
  {
    if !h.isConnected then HubStep(h, Fail(NotConnected))
    else
      var h' := h.(sent := h.sent + [call]);
      match reply
      case Pass => HubStep(h', Pass)
      case Fail(e) => HubStep(h', Fail(Rejected(e)))
  }

  function DigitChar(d: int): char
    requires 0 <= d < 10
  {
    "0123456789"[d]
  }

  /** Decimal spelling of a natural number. */
  function NatToString(n: nat): (r: string)
    ensures |r| >= 1
    decreases n
  {
    if n < 10 then [DigitChar(n)] else NatToString(n / 10) + [DigitChar(n % 10)]
  }

  /** `Number.prototype.toString()` for an integer id within the safe-integer range. */
  function IntToString(n: int): string
  {
    if n < 0 then "-" + NatToString(-n) else NatToString(n)
  }

  /** The value of a decimal digit, and 0 for any other character. */
  function DigitValue(c: char): (d: nat)
    ensures d < 10
  {
    var k := c as int - '0' as int;
    if 0 <= k < 10 then k else 0
  }

  /** Reading a string of decimal digits back as a number, as the server does with an id. */
  function ParseNat(s: string): nat
  {
    if s == [] then 0 else 10 * ParseNat(s[..|s| - 1]) + DigitValue(s[|s| - 1])
  }

  function ParseInt(s: string): int
  {
    if s != [] && s[0] == '-' then -(ParseNat(s[1..]) as int) else ParseNat(s)
  }

  lemma {:induction false} ParseNatToString(n: nat)
    ensures ParseNat(NatToString(n)) == n
    ensures NatToString(n)[0] != '-'
    decreases n
  {
    var s := NatToString(n);
    if n < 10 {
      assert s[..|s| - 1] == [];
    } else {
      ParseNatToString(n / 10);
      assert s[..|s| - 1] == NatToString(n / 10);
    }
  }

  /** The string id a join or leave sends reads back as the numeric id. */
  lemma IdStringRoundTrip(n: int)
    ensures ParseInt(IntToString(n)) == n
  {
    if n < 0 {
      ParseNatToString(-n);
      assert IntToString(n)[1..] == NatToString(-n);
    } else {
      ParseNatToString(n);
    }
  }

  /** `joinConversation(conversationId)`: invoke `JoinConversation` with the id as a string. */
  function JoinConversation(h: Hub, conversationId: int, reply: Outcome<string>): (r: HubStep)
    ensures !h.isConnected ==> r == HubStep(h, Fail(NotConnected))
    ensures h.isConnected ==>
              r.hub.sent == h.sent + [Invocation("JoinConversation", [Text(IntToString(conversationId))])]
    ensures r.hub.isConnected == h.isConnected && r.hub.registry == h.registry
    ensures r.outcome == Pass <==> h.isConnected && reply == Pass
  {
    Invoke(h, Invocation("JoinConversation", [Text(IntToString(conversationId))]), reply)
  }

  /** `leaveConversation(conversationId)`: invoke `LeaveConversation` with the id as a string. */
  function LeaveConversation(h: Hub, conversationId: int, reply: Outcome<string>): (r: HubStep)
    ensures !h.isConnected ==> r == HubStep(h, Fail(NotConnected))
    ensures h.isConnected ==>
              r.hub.sent == h.sent + [Invocation("LeaveConversation", [Text(IntToString(conversationId))])]
    ensures r.hub.isConnected == h.isConnected && r.hub.registry == h.registry
    ensures r.outcome == Pass <==> h.isConnected && reply == Pass
  {
    Invoke(h, Invocation("LeaveConversation", [Text(IntToString(conversationId))]), reply)
  }

  /** `sendMessage(conversationId, content)`: invoke `SendMessage` with one message record. */
  function SendMessage(h: Hub, conversationId: int, content: Option<string>, reply: Outcome<string>): (r: HubStep)
    ensures !h.isConnected ==> r == HubStep(h, Fail(NotConnected))
    ensures h.isConnected ==>
              r.hub.sent == h.sent + [Invocation("SendMessage", [MessageDto(conversationId, content)])]
    ensures r.hub.isConnected == h.isConnected && r.hub.registry == h.registry
    ensures r.outcome == Pass <==> h.isConnected && reply == Pass
  {
    Invoke(h, Invocation("SendMessage", [MessageDto(conversationId, content)]), reply)
  }

  /** `updateMessage(messageId, newContent, conversationId)`: the arguments go out in that order. */
  function UpdateMessage(h: Hub, messageId: Value, newContent: Value, conversationId: Value, reply: Outcome<string>)
    : (r: HubStep)
    ensures !h.isConnected ==> r == HubStep(h, Fail(NotConnected))
    ensures h.isConnected ==>
              r.hub.sent == h.sent + [Invocation("UpdateMessage", [messageId, newContent, conversationId])]
    ensures r.hub.isConnected == h.isConnected && r.hub.registry == h.registry
    ensures r.outcome == Pass <==> h.isConnected && reply == Pass
  {
    Invoke(h, Invocation("UpdateMessage", [messageId, newContent, conversationId]), reply)
  }

  /** `deleteMessage(messageId, conversationId)`: the arguments go out in that order. */
  function DeleteMessage(h: Hub, messageId: Value, conversationId: Value, reply: Outcome<string>): (r: HubStep)
    ensures !h.isConnected ==> r == HubStep(h, Fail(NotConnected))
    ensures h.isConnected ==>
              r.hub.sent == h.sent + [Invocation("DeleteMessage", [messageId, conversationId])]
    ensures r.hub.isConnected == h.isConnected && r.hub.registry == h.registry
    ensures r.outcome == Pass <==> h.isConnected && reply == Pass
  {
    Invoke(h, Invocation("DeleteMessage", [messageId, conversationId]), reply)
  }

  /** A closed connection refuses every remote method without issuing anything. */
  lemma ClosedHubInvokesNothing(h: Hub, error: Option<string>, id: int, v: Value, reply: Outcome<string>)
    ensures var c := OnClose(h, error).0;
            && JoinConversation(c, id, reply) == HubStep(c, Fail(NotConnected))
            && LeaveConversation(c, id, reply) == HubStep(c, Fail(NotConnected))
            && SendMessage(c, id, None, reply) == HubStep(c, Fail(NotConnected))
            && UpdateMessage(c, v, v, v, reply) == HubStep(c, Fail(NotConnected))
            && DeleteMessage(c, v, v, reply) == HubStep(c, Fail(NotConnected))
            && c.sent == h.sent
  {
  }
}

=== FILE: chat_session.dfy ===
/**
  The actions of the `useChat` hook: how each one sequences the guards, the remote
  calls on the push connection, the REST calls and the state updaters of `Timeline`.

  REST calls (`getMessagesByConversationId`, `createMessage`, `createConversation`,
  `getMyConversations`) are parameters holding what the call returned or threw. The
  hook's own `isConnected` state is distinct from the service's flag: the hook raises it
  after a successful connect and never lowers it on a dropped connection.
 */
module ChatSession {
  import opened Common
  import opened Timeline
  import ChatHub

  datatype Session = Session(
    isConnected: bool,
    connectionError: Option<ChatHub.HubError>,
    connectionAttempted: bool,
    joined: set<ConversationId>,
    active: Option<ConversationId>,
    data: ChatData,
    hub: ChatHub.Hub)

  datatype ChatError = HubFailure(hubError: ChatHub.HubError) | RestFailure(reason: string)

  /** The state after an action and what the action returned or threw. */
  datatype Step<T> = Step(session: Session, result: Result<T, ChatError>)

  /** The hook's state on first render, over a given service. */
  function Fresh(hub: ChatHub.Hub): Session
  {
    Session(false, None, false, {}, None, ChatData(map[], []), hub)
  }

  // ---------------------------------------------------------------------------
  // Mount and unmount: handler registration and the connection
  // ---------------------------------------------------------------------------

  /**
    The first mount over a freshly constructed service: the hook is connected exactly
    when `start` succeeds, no remote method has been invoked, and nothing is joined,
    active or loaded.
   */
  lemma FirstMount(storedToken: Option<string>, start: Outcome<string>)
    requires ChatHub.Truthy(storedToken)
    ensures var r := Mount(Fresh(ChatHub.Initial), storedToken, start);
            && (r.isConnected <==> start.Pass?)
            && r.connectionAttempted == r.isConnected
            && r.hub.sent == []
            && r.joined == {} && r.active == None && r.data == ChatData(map[], [])
            && ChatHub.Valid(r.hub)
  {
    ChatHub.InitialIsValid();
  }

  /** The six callbacks the hook registers, by event; each callback keeps its identity. */
  const Subscriptions: seq<(ChatHub.EventName, ChatHub.Handler)> := [
    (ChatHub.ReceiveMessage, 1),
    (ChatHub.MessageUpdated, 2),
    (ChatHub.MessageDeleted, 3),
    (ChatHub.UserJoined, 4),
    (ChatHub.UserLeft, 5),
    (ChatHub.UserOnlineStatusChanged, 6)]

  /** `chatHub.on(...)` for each subscription in order. */
  function SubscribeAll(r: ChatHub.Registry, subs: seq<(ChatHub.EventName, ChatHub.Handler)>): (r': ChatHub.Registry)
    ensures forall i :: 0 <= i < |subs| ==> subs[i].1 in ChatHub.HandlersFor(r', subs[i].0)
    ensures forall e, h :: h in ChatHub.HandlersFor(r, e) ==> h in ChatHub.HandlersFor(r', e)
    ensures ChatHub.WellFormed(r) ==> ChatHub.WellFormed(r')
    decreases |subs|
  {
    if subs == [] then r
    else
      var r1 := ChatHub.On(r, subs[0].0, subs[0].1).0;
      OnStep(r, subs[0].0, subs[0].1);
      var r' := SubscribeAll(r1, subs[1..]);
      assert forall i :: 1 <= i < |subs| ==> subs[i] == subs[1..][i - 1];
      r'
  }

  /** One `on` call registers its handler, loses no registration and keeps the sets duplicate-free. */
  lemma OnStep(r: ChatHub.Registry, e: ChatHub.EventName, h: ChatHub.Handler)
    ensures var r1 := ChatHub.On(r, e, h).0;
            && h in ChatHub.HandlersFor(r1, e)
            && (forall e', x :: x in ChatHub.HandlersFor(r, e') ==> x in ChatHub.HandlersFor(r1, e'))
            && (ChatHub.WellFormed(r) ==> ChatHub.WellFormed(r1))
  {
  }

  /** `chatHub.off(...)` for each subscription in order. */
  function UnsubscribeAll(r: ChatHub.Registry, subs: seq<(ChatHub.EventName, ChatHub.Handler)>): (r': ChatHub.Registry)
    ensures forall i :: 0 <= i < |subs| ==> subs[i].1 !in ChatHub.HandlersFor(r', subs[i].0)
    ensures forall e, h :: h in ChatHub.HandlersFor(r', e) ==> h in ChatHub.HandlersFor(r, e)
    ensures r'.Keys == r.Keys
    ensures ChatHub.WellFormed(r) ==> ChatHub.WellFormed(r')
    decreases |subs|
  {
    if subs == [] then r
    else
      var r1 := ChatHub.Off(r, subs[0].0, subs[0].1);
      var r' := UnsubscribeAll(r1, subs[1..]);
      assert forall i :: 1 <= i < |subs| ==> subs[i] == subs[1..][i - 1];
      r'
  }

  /**
    The mount effect `initializeConnection`: skip without a stored token or after an
    attempt; otherwise register the callbacks, then connect with the stored token.
   */
  function Mount(s: Session, storedToken: Option<string>, start: Outcome<string>): (r: Session)
    ensures !ChatHub.Truthy(storedToken) || s.connectionAttempted ==> r == s
    ensures ChatHub.Truthy(storedToken) && !s.connectionAttempted ==>
              && (forall i :: 0 <= i < |Subscriptions| ==>
                    Subscriptions[i].1 in ChatHub.HandlersFor(r.hub.registry, Subscriptions[i].0))
              && (r.isConnected <==> r.hub.isConnected)
              && (r.isConnected <==> r.connectionAttempted)
              && (r.isConnected <==> s.hub.isConnected || start.Pass?)
              && (r.isConnected ==> r.connectionError.None?)
              && (!r.isConnected ==> r.connectionError == Some(ChatHub.StartFailed(start.error)))
    ensures r.joined == s.joined && r.active == s.active && r.data == s.data
    ensures ChatHub.Valid(s.hub) ==> ChatHub.Valid(r.hub)
  {
    if !ChatHub.Truthy(storedToken) || s.connectionAttempted then s
    else
      var registered := s.hub.(registry := SubscribeAll(s.hub.registry, Subscriptions));
      var c := ChatHub.Connect(registered, storedToken, storedToken, start);
      match c.outcome
      case Pass => s.(connectionAttempted := true, hub := c.hub, isConnected := true, connectionError := None)
      case Fail(e) => s.(connectionAttempted := false, hub := c.hub, isConnected := false, connectionError := Some(e))
  }

  /**
    The unmount cleanup: unregister the callbacks, disconnect (not awaited, so a failing
    `stop` changes nothing here), clear the joined set and allow a new attempt.
   */
  function Unmount(s: Session, stop: Outcome<string>): (r: Session)
    ensures r.joined == {}
    ensures !r.connectionAttempted
    ensures forall i :: 0 <= i < |Subscriptions| ==>
              Subscriptions[i].1 !in ChatHub.HandlersFor(r.hub.registry, Subscriptions[i].0)
    ensures ChatHub.Valid(s.hub) && stop.Pass? ==> !r.hub.isConnected
    ensures r.data == s.data && r.active == s.active
    ensures ChatHub.Valid(s.hub) ==> ChatHub.Valid(r.hub)
  {
    var unregistered := s.hub.(registry := UnsubscribeAll(s.hub.registry, Subscriptions));
    var d := ChatHub.Disconnect(unregistered, stop);
    s.(hub := d.hub, joined := {}, connectionAttempted := false)
  }

  /** The service's `onclose` fired: only the service's flag moves. */
  function HubClosed(s: Session, error: Option<string>): (r: Session)
    ensures r == s.(hub := s.hub.(isConnected := false))
  {
    s.(hub := ChatHub.OnClose(s.hub, error).0)
  }

  /** The service's `onreconnected` fired. */
  function HubReconnected(s: Session, connectionId: Option<string>): (r: Session)
    requires s.hub.connection.Some?
    ensures r == s.(hub := s.hub.(isConnected := true))
  {
    s.(hub := ChatHub.OnReconnected(s.hub, connectionId).0)
  }

  /** The joined set survives a dropped connection, and the hook still believes it is connected. */
  lemma CloseKeepsMembership(s: Session, error: Option<string>)
    ensures HubClosed(s, error).joined == s.joined
    ensures HubClosed(s, error).isConnected == s.isConnected
    ensures HubClosed(s, error).hub.sent == s.hub.sent
  {
  }

  /** Mounting twice registers each callback once: a retry does not duplicate handlers. */
  lemma SubscribeAllTwice(r: ChatHub.Registry, subs: seq<(ChatHub.EventName, ChatHub.Handler)>)
    ensures SubscribeAll(SubscribeAll(r, subs), subs) == SubscribeAll(r, subs)
  {
    SubscribeAllNoOp(SubscribeAll(r, subs), subs);
  }

  /** Subscribing pairs that are already registered changes nothing. */
  lemma {:induction false} SubscribeAllNoOp(r: ChatHub.Registry, subs: seq<(ChatHub.EventName, ChatHub.Handler)>)
    requires forall i :: 0 <= i < |subs| ==> subs[i].1 in ChatHub.HandlersFor(r, subs[i].0)
    ensures SubscribeAll(r, subs) == r
    decreases |subs|
  {
    if subs != [] {
      var r1 := ChatHub.On(r, subs[0].0, subs[0].1).0;
      assert r1 == r;
      assert forall i :: 0 <= i < |subs[1..]| ==> subs[1..][i] == subs[i + 1];
      SubscribeAllNoOp(r1, subs[1..]);
    }
  }

  // ---------------------------------------------------------------------------
  // REST-backed actions
  // ---------------------------------------------------------------------------

  /** `loadConversations()`: replace the summaries with what the server listed. */
  function LoadConversations(s: Session, fetched: Result<seq<Conversation>, string>): (r: Step<seq<Conversation>>)
    ensures fetched.Err? ==> r == Step(s, Err(RestFailure(fetched.error)))
    ensures fetched.Ok? ==> r.result == Ok(fetched.value)
                            && r.session == s.(data := s.data.(conversations := fetched.value))
  {
    match fetched
    case Ok(convs) => Step(s.(data := s.data.(conversations := convs)), Ok(convs))
    case Err(e) => Step(s, Err(RestFailure(e)))
  }

  /**
    `loadMessages(conversationId, page)`: `fetched` is the newest-first page the REST call
    returned, or its error. A failed load leaves the timelines as they were.
   */
  function LoadMessages(s: Session, c: ConversationId, page: int, fetched: Result<seq<Message>, string>)
    : (r: Step<seq<Message>>)
    ensures fetched.Err? ==> r == Step(s, Err(RestFailure(fetched.error)))
    ensures fetched.Ok? ==>
              && r.result == Ok(fetched.value)
              && r.session == s.(data := r.session.data)
              && r.session.data.conversations == s.data.conversations
              && OthersUnchanged(s.data.messages, r.session.data.messages, c)
              && (page == 1 ==> r.session.data.messages[c] == Reverse(fetched.value))
              && (page != 1 ==> r.session.data.messages[c] == Reverse(fetched.value) + ListOf(s.data.messages, c))
  {
    match fetched
    case Err(e) => Step(s, Err(RestFailure(e)))
    case Ok(page_) =>
      Step(s.(data := s.data.(messages := ApplyPage(s.data.messages, c, page, page_))), Ok(page_))
  }

  /** `createConversation(data)`: the created summary goes in front of the list. */
  function CreateConversation(s: Session, created: Result<Conversation, string>): (r: Step<Conversation>)
    ensures created.Err? ==> r == Step(s, Err(RestFailure(created.error)))
    ensures created.Ok? ==>
              var convs := r.session.data.conversations;
              && r.result == Ok(created.value)
              && |convs| == |s.data.conversations| + 1
              && convs[0] == created.value
              && convs[1..] == s.data.conversations
              && r.session == s.(data := s.data.(conversations := convs))
  {
    match created
    case Ok(conv) => Step(s.(data := s.data.(conversations := PrependConversation(s.data.conversations, conv))), Ok(conv))
    case Err(e) => Step(s, Err(RestFailure(e)))
  }

  // ---------------------------------------------------------------------------
  // Membership
  // ---------------------------------------------------------------------------

  function JoinCall(c: ConversationId): ChatHub.Invocation
  {
    ChatHub.Invocation("JoinConversation", [ChatHub.Text(ChatHub.IntToString(c))])
  }

  function LeaveCall(c: ConversationId): ChatHub.Invocation
  {
    ChatHub.Invocation("LeaveConversation", [ChatHub.Text(ChatHub.IntToString(c))])
  }

  /**
    `joinConversation(conversationId)`: nothing when the hook thinks it is disconnected
    or the id is already joined; otherwise the remote join, and only after it succeeds the
    id is recorded, made active and, if no timeline exists for it, page 1 is loaded.
   */
  function JoinConversation(s: Session, c: ConversationId, reply: Outcome<string>,
                            fetched: Result<seq<Message>, string>): (r: Step<()>)
    ensures !s.isConnected || c in s.joined ==> r == Step(s, Ok(()))
    ensures s.isConnected && c !in s.joined && !(s.hub.isConnected && reply == Pass) ==>
              && r.result.Err?
              && r.session == s.(hub := r.session.hub)
              && r.session.hub.isConnected == s.hub.isConnected
    ensures s.isConnected && c !in s.joined && !s.hub.isConnected ==>
              r == Step(s, Err(HubFailure(ChatHub.NotConnected)))
    ensures s.isConnected && c !in s.joined && s.hub.isConnected ==>
              r.session.hub == s.hub.(sent := s.hub.sent + [JoinCall(c)])
    ensures s.isConnected && c !in s.joined && s.hub.isConnected && reply.Fail? ==>
              r == Step(s.(hub := s.hub.(sent := s.hub.sent + [JoinCall(c)])),
                        Err(HubFailure(ChatHub.Rejected(reply.error))))
    ensures s.isConnected && c !in s.joined && s.hub.isConnected && reply == Pass ==>
              && r.session.joined == s.joined + {c}
              && r.session.active == Some(c)
              && r.session.hub.sent == s.hub.sent + [JoinCall(c)]
              && r.session.data.conversations == s.data.conversations
              && (c in s.data.messages ==> r.session.data == s.data && r.result == Ok(()))
              && (c !in s.data.messages && fetched.Err? ==>
                    r.session.data == s.data && r.result == Err(RestFailure(fetched.error)))
              && (c !in s.data.messages && fetched.Ok? ==>
                    && r.result == Ok(())
                    && OthersUnchanged(s.data.messages, r.session.data.messages, c)
                    && r.session.data.messages[c] == Reverse(fetched.value))
  {
    if !s.isConnected || c in s.joined then Step(s, Ok(()))
    else
      var j := ChatHub.JoinConversation(s.hub, c, reply);
      match j.outcome
      case Fail(e) => Step(s.(hub := j.hub), Err(HubFailure(e)))
      case Pass =>
        var s1 := s.(hub := j.hub, joined := s.joined + {c}, active := Some(c));
        if c in s.data.messages then Step(s1, Ok(()))
        else
          var l := LoadMessages(s1, c, 1, fetched);
          match l.result
          case Ok(_) => Step(l.session, Ok(()))
          case Err(e) => Step(l.session, Err(e))
  }

  /**
    `leaveConversation(conversationId)`: nothing when the hook thinks it is disconnected;
    otherwise the remote leave, and only after it succeeds the id is dropped and, if it
    was active, the active id cleared.
   */
  function LeaveConversation(s: Session, c: ConversationId, reply: Outcome<string>): (r: Step<()>)
    ensures !s.isConnected ==> r == Step(s, Ok(()))
    ensures s.isConnected && !(s.hub.isConnected && reply == Pass) ==>
              && r.result.Err?
              && r.session == s.(hub := r.session.hub)
    ensures s.isConnected && !s.hub.isConnected ==> r == Step(s, Err(HubFailure(ChatHub.NotConnected)))
    ensures s.isConnected && s.hub.isConnected ==>
              r.session.hub == s.hub.(sent := s.hub.sent + [LeaveCall(c)])
    ensures s.isConnected && s.hub.isConnected && reply.Fail? ==>
              r == Step(s.(hub := s.hub.(sent := s.hub.sent + [LeaveCall(c)])),
                        Err(HubFailure(ChatHub.Rejected(reply.error))))
    ensures s.isConnected && s.hub.isConnected && reply == Pass ==>
              && r.result == Ok(())
              && r.session.joined == s.joined - {c}
              && (s.active == Some(c) ==> r.session.active == None)
              && (s.active != Some(c) ==> r.session.active == s.active)
              && r.session.hub.sent == s.hub.sent + [LeaveCall(c)]
              && r.session.data == s.data
  {
    if !s.isConnected then Step(s, Ok(()))
    else
      var l := ChatHub.LeaveConversation(s.hub, c, reply);
      match l.outcome
      case Fail(e) => Step(s.(hub := l.hub), Err(HubFailure(e)))
      case Pass =>
        Step(s.(hub := l.hub, joined := s.joined - {c},
                active := if s.active == Some(c) then None else s.active), Ok(()))
  }

  /** A failed leave (here: the connection already dropped) keeps the id in the joined set. */
  lemma LeaveAfterCloseKeepsMembership(s: Session, error: Option<string>, c: ConversationId, reply: Outcome<string>)
    requires s.isConnected && c in s.joined
    ensures var s1 := HubClosed(s, error);
            var r := LeaveConversation(s1, c, reply);
            && r == Step(s1, Err(HubFailure(ChatHub.NotConnected)))
            && c in r.session.joined
  {
  }

  /** After the connection drops, joining a new conversation throws and records nothing. */
  lemma JoinAfterCloseThrows(s: Session, error: Option<string>, c: ConversationId, reply: Outcome<string>,
                             fetched: Result<seq<Message>, string>)
    requires s.isConnected && c !in s.joined
    ensures var s1 := HubClosed(s, error);
            JoinConversation(s1, c, reply, fetched) == Step(s1, Err(HubFailure(ChatHub.NotConnected)))
  {
  }

  /**
    After a drop and an automatic reconnect the joined set still lists the old ids, so
    joining one again issues no remote join, although the new connection is in no group.
   */
  lemma StaleMembershipAfterReconnect(s: Session, error: Option<string>, connectionId: Option<string>,
                                      c: ConversationId, reply: Outcome<string>, fetched: Result<seq<Message>, string>)
    requires s.hub.connection.Some? && c in s.joined
    ensures var s2 := HubReconnected(HubClosed(s, error), connectionId);
            && s2.hub.isConnected
            && c in s2.joined
            && JoinConversation(s2, c, reply, fetched) == Step(s2, Ok(()))
            && s2.hub.sent == s.hub.sent
  {
  }

  /** Joining another conversation does not leave the previous one: both stay joined. */
  lemma JoinDoesNotLeavePrevious(s: Session, a: ConversationId, b: ConversationId,
                                 fa: Result<seq<Message>, string>, fb: Result<seq<Message>, string>)
    requires s.isConnected && s.hub.isConnected && a != b && a !in s.joined && b !in s.joined
    ensures var s1 := JoinConversation(s, a, Pass, fa).session;
            var s2 := JoinConversation(s1, b, Pass, fb).session;
            && {a, b} <= s2.joined
            && s2.active == Some(b)
  {
  }

  // ---------------------------------------------------------------------------
  // Messages
  // ---------------------------------------------------------------------------

  /**
    `sendMessage(conversationId, content, attachment)`: with an attachment the REST call
    (`created`) and its messages are returned, not merged; without one the push method is
    invoked and the echo is awaited. Neither path touches the timelines.
   */
  function SendMessage(s: Session, c: ConversationId, content: Option<string>, attachment: Option<Attachment>,
                       created: Result<seq<Message>, string>, reply: Outcome<string>): (r: Step<Option<seq<Message>>>)
    ensures r.session.data == s.data
    ensures attachment.Some? ==> r.session == s
    ensures attachment.Some? && created.Ok? ==> r.result == Ok(Some(created.value))
    ensures attachment.Some? && created.Err? ==> r.result == Err(RestFailure(created.error))
    ensures attachment.None? ==>
              && r.session == s.(hub := r.session.hub)
              && (!s.hub.isConnected ==> r == Step(s, Err(HubFailure(ChatHub.NotConnected))))
              && (s.hub.isConnected ==>
                    r.session.hub == s.hub.(sent := s.hub.sent + [ChatHub.Invocation("SendMessage", [ChatHub.MessageDto(c, content)])]))
              && (r.result == Ok(None) <==> s.hub.isConnected && reply == Pass)
  {
    match attachment
    case Some(_) =>
      (match created
       case Ok(ms) => Step(s, Ok(Some(ms)))
       case Err(e) => Step(s, Err(RestFailure(e))))
    case None =>
      var h := ChatHub.SendMessage(s.hub, c, content, reply);
      match h.outcome
      case Pass => Step(s.(hub := h.hub), Ok(None))
      case Fail(e) => Step(s.(hub := h.hub), Err(HubFailure(e)))
  }

  /** Each path ignores the other path's collaborator. */
  lemma SendPathsAreSeparate(s: Session, c: ConversationId, content: Option<string>, attachment: Option<Attachment>,
                             created1: Result<seq<Message>, string>, created2: Result<seq<Message>, string>,
                             reply1: Outcome<string>, reply2: Outcome<string>)
    ensures attachment.None? ==>
              SendMessage(s, c, content, attachment, created1, reply1) == SendMessage(s, c, content, attachment, created2, reply1)
    ensures attachment.Some? ==>
              SendMessage(s, c, content, attachment, created1, reply1) == SendMessage(s, c, content, attachment, created1, reply2)
  {
  }

  /**
    `updateMessage(messageId, conversationId, newContent)`: calls the service's
    `updateMessage(messageId, newContent, conversationId)` with the arguments
    `(conversationId, messageId, newContent)`, exactly as the hook writes it.
   */
  function UpdateMessage(s: Session, messageId: MessageId, c: ConversationId, newContent: string,
                         reply: Outcome<string>): (r: Step<()>)
    ensures r.session == s.(hub := r.session.hub)
    ensures !s.hub.isConnected ==> r == Step(s, Err(HubFailure(ChatHub.NotConnected)))
    ensures s.hub.isConnected ==>
              r.session.hub == s.hub.(sent := s.hub.sent
                + [ChatHub.Invocation("UpdateMessage", [ChatHub.Num(c), ChatHub.Num(messageId), ChatHub.Text(newContent)])])
    ensures r.result == Ok(()) <==> s.hub.isConnected && reply == Pass
  {
    var h := ChatHub.UpdateMessage(s.hub, ChatHub.Num(c), ChatHub.Num(messageId), ChatHub.Text(newContent), reply);
    match h.outcome
    case Pass => Step(s.(hub := h.hub), Ok(()))
    case Fail(e) => Step(s.(hub := h.hub), Err(HubFailure(e)))
  }

  /**
    `deleteMessage(messageId, conversationId)`: calls the service's
    `deleteMessage(messageId, conversationId)` with `(conversationId, messageId)`.
   */
  function DeleteMessage(s: Session, messageId: MessageId, c: ConversationId, reply: Outcome<string>): (r: Step<()>)
    ensures r.session == s.(hub := r.session.hub)
    ensures !s.hub.isConnected ==> r == Step(s, Err(HubFailure(ChatHub.NotConnected)))
    ensures s.hub.isConnected ==>
              r.session.hub == s.hub.(sent := s.hub.sent
                + [ChatHub.Invocation("DeleteMessage", [ChatHub.Num(c), ChatHub.Num(messageId)])])
    ensures r.result == Ok(()) <==> s.hub.isConnected && reply == Pass
  {
    var h := ChatHub.DeleteMessage(s.hub, ChatHub.Num(c), ChatHub.Num(messageId), reply);
    match h.outcome
    case Pass => Step(s.(hub := h.hub), Ok(()))
    case Fail(e) => Step(s.(hub := h.hub), Err(HubFailure(e)))
  }

  /** The update the hook issues is never the one the service's parameter order describes. */
  lemma UpdateArgumentsOutOfOrder(s: Session, messageId: MessageId, c: ConversationId, newContent: string,
                                  reply: Outcome<string>)
    requires s.hub.isConnected
    ensures UpdateMessage(s, messageId, c, newContent, reply).session.hub
            != ChatHub.UpdateMessage(s.hub, ChatHub.Num(messageId), ChatHub.Text(newContent), ChatHub.Num(c), reply).hub
  {
    var issued := UpdateMessage(s, messageId, c, newContent, reply).session.hub.sent;
    var intended := ChatHub.UpdateMessage(s.hub, ChatHub.Num(messageId), ChatHub.Text(newContent), ChatHub.Num(c), reply).hub.sent;
    assert issued[|s.hub.sent|].args[1] != intended[|s.hub.sent|].args[1];
  }

  /** The delete the hook issues swaps message and conversation ids whenever they differ. */
  lemma DeleteArgumentsSwapped(s: Session, messageId: MessageId, c: ConversationId, reply: Outcome<string>)
    requires s.hub.isConnected && messageId != c
    ensures DeleteMessage(s, messageId, c, reply).session.hub
            != ChatHub.DeleteMessage(s.hub, ChatHub.Num(messageId), ChatHub.Num(c), reply).hub
  {
    var issued := DeleteMessage(s, messageId, c, reply).session.hub.sent;
    var intended := ChatHub.DeleteMessage(s.hub, ChatHub.Num(messageId), ChatHub.Num(c), reply).hub.sent;
    assert issued[|s.hub.sent|].args[0] != intended[|s.hub.sent|].args[0];
  }

  /**
    The timeline `prev[v]` reads: object keys are strings, so a number and its decimal
    spelling name the same conversation, and a record names none.
   */
  function TimelineKey(v: ChatHub.Value): (r: Option<ConversationId>)
    ensures v.Num? ==> r == Some(v.n)
    ensures v.MessageDto? ==> r.None?
    ensures v.Text? && r.Some? ==> v.s == ChatHub.IntToString(r.value)
  {
    match v
    case Num(n) => Some(n)
    case Text(s) =>
      var n := ChatHub.ParseInt(s);
      if s == ChatHub.IntToString(n) then Some(n) else None
    case MessageDto(_, _) => None
  }

  /** The decimal spelling of an id reads the same timeline as the id. */
  lemma {:induction false} SpelledIdIsSameKey(n: ConversationId)
    ensures TimelineKey(ChatHub.Text(ChatHub.IntToString(n))) == Some(n)
  {
    ChatHub.IdStringRoundTrip(n);
  }

  /**
    The hook's `handleMessageDeleted(messageId, conversationId)` run on the positional
    arguments it is called with. A missing `conversationId` is `undefined`: `prev[undefined]`
    reads no conversation's timeline, and the empty list written back lands under a key
    that is no conversation's. A `messageId` that is not a number equals no message id.
   */
  function DeliverMessageDeleted(t: Timelines, args: seq<ChatHub.Value>): (r: Timelines)
    ensures |args| < 2 ==> r == t
    ensures |args| >= 2 && args[0].Num? && args[1].Num? ==> r == HandleMessageDeleted(t, args[0].n, args[1].n)
    ensures |args| >= 2 && !args[0].Num? ==> forall c :: c in t ==> c in r && r[c] == t[c]
  {
    if |args| < 2 then t
    else
      match TimelineKey(args[1])
      case None => t
      case Some(c) => if args[0].Num? then HandleMessageDeleted(t, args[0].n, c) else t[c := ListOf(t, c)]
  }

  /**
    The service forwards a `MessageDeleted` event with its one payload, so whatever the
    server sends, no handler call removes a message from any timeline.
   */
  lemma DeletionEventChangesNoTimeline(r: ChatHub.Registry, data: ChatHub.Value,
                                       throws: (ChatHub.Handler, ChatHub.Value) -> bool, t: Timelines)
    ensures forall d :: d in ChatHub.Deliveries(ChatHub.HandlersFor(r, ChatHub.MessageDeleted), data, throws) ==>
              DeliverMessageDeleted(t, d.args) == t
  {
    var ds := ChatHub.Deliveries(ChatHub.HandlersFor(r, ChatHub.MessageDeleted), data, throws);
    forall d | d in ds
      ensures DeliverMessageDeleted(t, d.args) == t
    {
      var i :| 0 <= i < |ds| && ds[i] == d;
      assert d.args == [data];
    }
  }

  /** The presence callback is registered, but the service forwards no server event to it. */
  lemma PresenceHandlerIsNeverReached(serverMethod: string)
    ensures Subscriptions[5] == (ChatHub.UserOnlineStatusChanged, 6)
    ensures ChatHub.ForwardedEvent(serverMethod) != Some(Subscriptions[5].0)
  {
  }

  // ---------------------------------------------------------------------------
  // Derived views over a whole scenario
  // ---------------------------------------------------------------------------

  /**
    Open an unloaded conversation whose first page is [m3, m2, m1], receive m4 live,
    then delete m2: the active view goes [m1, m2, m3], then [m1, m2, m3, m4], then
    [m1, m3, m4].
   */
  lemma OpenReceiveDeleteScenario(s: Session, c: ConversationId, m1: Message, m2: Message, m3: Message, m4: Message)
    requires s.isConnected && s.hub.isConnected && c !in s.joined && c !in s.data.messages
    requires m1.conversationId == c && m2.conversationId == c && m3.conversationId == c && m4.conversationId == c
    requires m4.id != m1.id && m4.id != m2.id && m4.id != m3.id
    requires m2.id != m1.id && m2.id != m3.id
    ensures var s1 := JoinConversation(s, c, Pass, Ok([m3, m2, m1])).session;
            var d2 := HandleReceiveMessage(s1.data, Single(m4));
            var t3 := HandleMessageDeleted(d2.messages, m2.id, c);
            && ActiveMessages(s1.data.messages, s1.active) == [m1, m2, m3]
            && ActiveMessages(d2.messages, s1.active) == [m1, m2, m3, m4]
            && ActiveMessages(t3, s1.active) == [m1, m3, m4]
  {
    var s1 := JoinConversation(s, c, Pass, Ok([m3, m2, m1])).session;
    ScenarioOpen(s, c, m1, m2, m3);
    var list := [m1, m2, m3];
    assert !HasId(list, m4.id) by {
      forall k | 0 <= k < |list|
        ensures list[k].id != m4.id
      {
      }
    }
    ReceiveNew(s1.data, m4);
    var d2 := HandleReceiveMessage(s1.data, Single(m4));
    assert ListOf(d2.messages, c) == list + [m4];
    assert list + [m4] == [m1, m2, m3, m4];
    ScenarioDelete(m1, m2, m3, m4);
  }

  lemma ScenarioOpen(s: Session, c: ConversationId, m1: Message, m2: Message, m3: Message)
    requires s.isConnected && s.hub.isConnected && c !in s.joined && c !in s.data.messages
    ensures var s1 := JoinConversation(s, c, Pass, Ok([m3, m2, m1])).session;
            && s1.active == Some(c)
            && ListOf(s1.data.messages, c) == [m1, m2, m3]
  {
    assert Reverse([m3, m2, m1]) == [m1, m2, m3];
  }

  lemma ScenarioDelete(m1: Message, m2: Message, m3: Message, m4: Message)
    requires m2.id != m1.id && m2.id != m3.id && m2.id != m4.id
    ensures RemoveId([m1, m2, m3, m4], m2.id) == [m1, m3, m4]
  {
    var id := m2.id;
    assert [m1, m2, m3, m4][1..] == [m2, m3, m4];
    assert [m2, m3, m4][1..] == [m3, m4];
    assert [m3, m4][1..] == [m4];
    assert [m4][1..] == [];
    assert RemoveId([m4], id) == [m4];
    assert RemoveId([m3, m4], id) == [m3, m4];
    assert RemoveId([m2, m3, m4], id) == [m3, m4];
  }
}

=== FILE: common.dfy ===
/** Failure-carrying wrappers shared by every module of the model. */
module Common {

  /** A value that may be absent: JavaScript's `null`/`undefined`. */
  datatype Option<+T> = None | Some(value: T)

  /** The outcome of an operation that either yields a value or throws. */
  datatype Result<+T, +E> = Ok(value: T) | Err(error: E)

  /** The outcome of an operation that yields nothing or throws. */
  datatype Outcome<+E> = Pass | Fail(error: E)
}

=== FILE: profile_update.dfy ===
/**
  The `PUT /api/users/me/update` route: a decision procedure from the request's
  `authorization` header and JSON body to a 401/400/500 response, or to exactly one
  forwarded backend call carrying the trimmed, non-blank fields.

  `fetchAPI` is an external call: its reply (the backend's JSON, or the message of the
  error it threw) is a parameter, and the call itself is recorded in `calls`.
 */
module ProfileUpdate {
  import opened Common

  // ---------------------------------------------------------------------------
  // Strings: ECMAScript whitespace, trim and length
  // ---------------------------------------------------------------------------

  /** ECMAScript WhiteSpace and LineTerminator outside the block U+2000..U+200A. */
  const SpaceChars: set<char> := {
    '\t', '\n', '\U{000B}', '\U{000C}', '\r', ' ', '\U{00A0}', '\U{1680}',
    '\U{2028}', '\U{2029}', '\U{202F}', '\U{205F}', '\U{3000}', '\U{FEFF}'
  }

  /** What `trim` strips and what `\s` matches. */
  predicate IsSpace(c: char)
  {
    c in SpaceChars || '\U{2000}' <= c <= '\U{200A}'
  }

  predicate NoSpace(s: string)
  {
    forall k :: 0 <= k < |s| ==> !IsSpace(s[k])
  }

  predicate AllSpace(s: string)
  {
    forall k :: 0 <= k < |s| ==> IsSpace(s[k])
  }

  /** Neither end of the string is whitespace. */
  predicate Trimmed(s: string)
  {
    s == [] || (!IsSpace(s[0]) && !IsSpace(s[|s| - 1]))
  }

  /** The first index at or after `k` that is not whitespace, or `|s|`. */
  function SkipLeading(s: string, k: nat): (n: nat)
    requires k <= |s|
    ensures k <= n <= |s|
    ensures forall m :: k <= m < n ==> IsSpace(s[m])
    ensures n < |s| ==> !IsSpace(s[n])
    decreases |s| - k
  {
    if k < |s| && IsSpace(s[k]) then SkipLeading(s, k + 1) else k
  }

  /** The end of `s[lo..e]` once its trailing whitespace is dropped. */
  function SkipTrailing(s: string, lo: nat, e: nat): (n: nat)
    requires lo <= e <= |s|
    ensures lo <= n <= e
    ensures forall m :: n <= m < e ==> IsSpace(s[m])
    ensures lo < n ==> !IsSpace(s[n - 1])
    decreases e
  {
    if lo < e && IsSpace(s[e - 1]) then SkipTrailing(s, lo, e - 1) else e
  }

  /**
    `r` is the infix of `s` at `i` with nothing but whitespace before and after it,
    and with no blank end of its own.
   */
  predicate TrimOf(r: string, s: string, i: int)
  {
    && 0 <= i && i + |r| <= |s| && r == s[i..i + |r|]
    && (forall k :: 0 <= k < i ==> IsSpace(s[k]))
    && (forall k :: i + |r| <= k < |s| ==> IsSpace(s[k]))
    && Trimmed(r)
  }

  /** `String.prototype.trim`: the whitespace at both ends removed, and nothing else. */
  function Trim(s: string): (r: string)
    ensures exists i :: TrimOf(r, s, i)
  {
    var i := SkipLeading(s, 0);
    var e := SkipTrailing(s, i, |s|);
    var r := s[i..e];
    assert r != [] ==> r[0] == s[i] && r[|r| - 1] == s[e - 1];
    assert TrimOf(r, s, i);
    r
  }

  /** A string with no blank end is its own trim. */
  lemma TrimTrimmed(s: string)
    requires Trimmed(s)
    ensures Trim(s) == s
  {
    if s != [] {
      assert SkipLeading(s, 0) == 0;
      assert SkipTrailing(s, 0, |s|) == |s|;
      assert s[0..|s|] == s;
    }
  }

  /** A string without whitespace is its own trim. */
  lemma TrimNoSpace(s: string)
    requires NoSpace(s)
    ensures Trim(s) == s
  {
    TrimTrimmed(s);
  }

  /** A string trims to "" exactly when it is all whitespace. */
  lemma TrimBlank(s: string)
    ensures Trim(s) == "" <==> AllSpace(s)
  {
    var i := SkipLeading(s, 0);
    if AllSpace(s) {
      assert i == |s|;
    }
  }

  lemma TrimIdempotent(s: string)
    ensures Trim(Trim(s)) == Trim(s)
  {
    TrimTrimmed(Trim(s));
  }

  /** `.length`: UTF-16 code units, so a character outside the BMP counts twice. */
  function Utf16Length(s: string): (n: nat)
    ensures |s| <= n <= 2 * |s|
  {
    if s == [] then 0 else (if s[0] as int > 0xFFFF then 2 else 1) + Utf16Length(s[1..])
  }

  // ---------------------------------------------------------------------------
  // The email pattern /^[^\s@]+@[^\s@]+\.[^\s@]+$/
  // ---------------------------------------------------------------------------

  /** One `[^\s@]+` run. */
  predicate Segment(s: string)
  {
    |s| > 0 && forall k :: 0 <= k < |s| ==> !IsSpace(s[k]) && s[k] != '@'
  }

  /** The pattern matches with its `@` at `i` and its `\.` at `j`. */
  predicate EmailSplit(s: string, i: int, j: int)
  {
    && 0 < i && i + 1 < j && j + 1 < |s|
    && s[i] == '@' && s[j] == '.'
    && Segment(s[..i]) && Segment(s[i + 1..j]) && Segment(s[j + 1..])
  }

  /**
    `emailRegex.test(s)`. A match is at least `x@y.z` long and neither starts nor ends
    with `@` or whitespace.
   */
  predicate MatchesEmailPattern(s: string)
    ensures MatchesEmailPattern(s) ==>
              && |s| >= 5
              && s[0] != '@' && !IsSpace(s[0])
              && s[|s| - 1] != '@' && !IsSpace(s[|s| - 1])
  {
    exists i, j | 0 <= i < |s| && 0 <= j < |s| :: EmailSplit(s, i, j)
  }

  /** A matching address has no whitespace anywhere, so trimming it changes nothing. */
  lemma MatchingEmailIsTrimmed(s: string)
    requires MatchesEmailPattern(s)
    ensures NoSpace(s)
    ensures Trim(s) == s
  {
    MatchHasNoSpace(s);
    TrimNoSpace(s);
  }

  lemma MatchHasNoSpace(s: string)
    requires MatchesEmailPattern(s)
    ensures NoSpace(s)
  {
    var i, j :| 0 <= i < |s| && 0 <= j < |s| && EmailSplit(s, i, j);
    forall k | 0 <= k < |s|
      ensures !IsSpace(s[k])
    {
      if k < i {
        assert s[k] == s[..i][k];
      } else if i + 1 <= k < j {
        assert s[k] == s[i + 1..j][k - i - 1];
      } else if j + 1 <= k {
        assert s[k] == s[j + 1..][k - j - 1];
      }
    }
  }

  /** A matching address has exactly one `@`. */
  lemma MatchingEmailHasOneAt(s: string, i: int, j: int)
    requires EmailSplit(s, i, j)
    ensures forall k :: 0 <= k < |s| && s[k] == '@' ==> k == i
  {
    forall k | 0 <= k < |s| && k != i
      ensures s[k] != '@'
    {
      if k < i {
        assert s[k] == s[..i][k];
      } else if i + 1 <= k < j {
        assert s[k] == s[i + 1..j][k - i - 1];
      } else if j + 1 <= k {
        assert s[k] == s[j + 1..][k - j - 1];
      }
    }
  }

  // ---------------------------------------------------------------------------
  // The route
  // ---------------------------------------------------------------------------

  /** The destructured body fields; an absent field is `undefined` or `null`. */
  datatype Body = Body(username: Option<string>, email: Option<string>,
                       phoneNumber: Option<string>, avatarUrl: Option<string>)

  /** `updateData`: a key is present exactly when its field is `Some`. */
  datatype UpdateData = UpdateData(username: Option<string>, email: Option<string>,
                                   phoneNumber: Option<string>, avatarUrl: Option<string>)

  datatype ResponseBody = MessageBody(message: string) | Forwarded(json: string)

  datatype Response = Response(status: int, body: ResponseBody)

  /** One `fetchAPI` call: endpoint, method, the `Authorization` header, and the body. */
  datatype BackendCall = BackendCall(endpoint: string, httpMethod: string, authorization: string, data: UpdateData)

  datatype Reply = Reply(response: Response, calls: seq<BackendCall>)

  /** `field && field.trim() !== ''`. */
  predicate NonBlank(f: Option<string>)
  {
    f.Some? && Trim(f.value) != ""
  }

  function KeepTrimmed(f: Option<string>): (r: Option<string>)
    ensures r.Some? <==> NonBlank(f)
    ensures r.Some? ==> r.value != "" && Trimmed(r.value) && r.value == Trim(f.value)
  {
    if NonBlank(f) then Some(Trim(f.value)) else None
  }

  /**
    The four `if` blocks that fill `updateData`: a key is present exactly when its field
    is non-blank, and then it is clean and is the field's trim.
   */
  function BuildUpdateData(b: Body): (u: UpdateData)
    ensures u.username.Some? <==> NonBlank(b.username)
    ensures u.email.Some? <==> NonBlank(b.email)
    ensures u.phoneNumber.Some? <==> NonBlank(b.phoneNumber)
    ensures u.avatarUrl.Some? <==> NonBlank(b.avatarUrl)
    ensures Clean(u.username) && Clean(u.email) && Clean(u.phoneNumber) && Clean(u.avatarUrl)
    ensures u.email.Some? ==> u.email.value == Trim(b.email.value)
    ensures u.username.Some? ==> u.username.value == Trim(b.username.value)
    ensures u.phoneNumber.Some? ==> u.phoneNumber.value == Trim(b.phoneNumber.value)
    ensures u.avatarUrl.Some? ==> u.avatarUrl.value == Trim(b.avatarUrl.value)
  {
    UpdateData(KeepTrimmed(b.username), KeepTrimmed(b.email), KeepTrimmed(b.phoneNumber), KeepTrimmed(b.avatarUrl))
  }

  predicate IsEmpty(u: UpdateData)
  {
    u.username.None? && u.email.None? && u.phoneNumber.None? && u.avatarUrl.None?
  }

  predicate EmailInvalid(b: Body)
  {
    NonBlank(b.email) && !MatchesEmailPattern(b.email.value)
  }

  predicate UsernameTooShort(b: Body)
  {
    NonBlank(b.username) && Utf16Length(Trim(b.username.value)) < 3
  }

  const FallbackError := "Failed to update user profile"

  /** The `catch` block: status 500 with the error's message, or the fallback for an empty one. */
  function ServerError(message: string): (r: Response)
    ensures r.status == 500
    ensures r.body.MessageBody? && r.body.message != ""
    ensures message != "" ==> r.body.message == message
    ensures message == "" ==> r.body.message == FallbackError
  {
    Response(500, MessageBody(if message != "" then message else FallbackError))
  }

  /**
    `PUT(request)`. `authHeader` is `headers.get('authorization')`; `body` is what
    `request.json()` resolved to or the message it rejected with; `backend` is what
    `fetchAPI` returned or the message it threw.
   */
  function Put(authHeader: Option<string>, body: Result<Body, string>, backend: Result<string, string>): (r: Reply)
    ensures authHeader.None? || authHeader == Some("") ==>
              r == Reply(Response(401, MessageBody("Authorization header required")), [])
    ensures authHeader.Some? && authHeader.value != "" && body.Err? ==>
              r.response == ServerError(body.error) && r.calls == []
    ensures authHeader.Some? && authHeader.value != "" && body.Ok? && EmailInvalid(body.value) ==>
              r == Reply(Response(400, MessageBody("Invalid email format")), [])
    ensures authHeader.Some? && authHeader.value != "" && body.Ok? && !EmailInvalid(body.value)
            && UsernameTooShort(body.value) ==>
              r == Reply(Response(400, MessageBody("Username must be at least 3 characters")), [])
    ensures authHeader.Some? && authHeader.value != "" && body.Ok? && !EmailInvalid(body.value)
            && !UsernameTooShort(body.value) && IsEmpty(BuildUpdateData(body.value)) ==>
              r == Reply(Response(400, MessageBody("No fields to update")), [])
    ensures authHeader.Some? && authHeader.value != "" && body.Ok? && !EmailInvalid(body.value)
            && !UsernameTooShort(body.value) && !IsEmpty(BuildUpdateData(body.value)) ==>
              r.calls == [BackendCall("/users/me/update", "PUT", authHeader.value, BuildUpdateData(body.value))]
    ensures |r.calls| <= 1
    ensures r.calls != [] ==>
              && authHeader.Some? && authHeader.value != "" && body.Ok?
              && !EmailInvalid(body.value) && !UsernameTooShort(body.value) && !IsEmpty(BuildUpdateData(body.value))
              && r.calls == [BackendCall("/users/me/update", "PUT", authHeader.value, BuildUpdateData(body.value))]
    ensures r.response.status == 200 <==> r.calls != [] && backend.Ok?
    ensures r.calls != [] && backend.Ok? ==> r.response == Response(200, Forwarded(backend.value))
    ensures r.calls != [] && backend.Err? ==> r.response == ServerError(backend.error)
  {
    if authHeader.None? || authHeader.value == "" then
      Reply(Response(401, MessageBody("Authorization header required")), [])
    else
      match body
      case Err(e) => Reply(ServerError(e), [])
      case Ok(b) =>
        if EmailInvalid(b) then
          Reply(Response(400, MessageBody("Invalid email format")), [])
        else if UsernameTooShort(b) then
          Reply(Response(400, MessageBody("Username must be at least 3 characters")), [])
        else
          var data := BuildUpdateData(b);
          if IsEmpty(data) then
            Reply(Response(400, MessageBody("No fields to update")), [])
          else
            var call := BackendCall("/users/me/update", "PUT", authHeader.value, data);
            match backend
            case Ok(json) => Reply(Response(200, Forwarded(json)), [call])
            case Err(e) => Reply(ServerError(e), [call])
  }

  /** A trimmed, non-blank field value. */
  predicate Clean(f: Option<string>)
  {
    f.Some? ==> f.value != "" && Trimmed(f.value)
  }

  /**
    Whatever reaches the backend is clean: at least one field, every field trimmed and
    non-blank, a well-formed email and a username of at least three code units.
   */
  lemma ForwardedDataIsClean(authHeader: Option<string>, body: Result<Body, string>, backend: Result<string, string>)
    requires Put(authHeader, body, backend).calls != []
    ensures var u := Put(authHeader, body, backend).calls[0].data;
            && !IsEmpty(u)
            && Clean(u.username) && Clean(u.email) && Clean(u.phoneNumber) && Clean(u.avatarUrl)
            && (u.email.Some? ==> MatchesEmailPattern(u.email.value))
            && (u.username.Some? ==> Utf16Length(u.username.value) >= 3)
            && authHeader.Some? && authHeader.value != ""
  {
    var r := Put(authHeader, body, backend);
    assert r.calls[0].data == BuildUpdateData(body.value);
    ValidatedDataIsClean(body.value);
  }

  /** The record built from a body that passed both checks is clean. */
  lemma ValidatedDataIsClean(b: Body)
    requires !EmailInvalid(b) && !UsernameTooShort(b)
    ensures var u := BuildUpdateData(b);
            && Clean(u.username) && Clean(u.email) && Clean(u.phoneNumber) && Clean(u.avatarUrl)
            && (u.email.Some? ==> MatchesEmailPattern(u.email.value))
            && (u.username.Some? ==> Utf16Length(u.username.value) >= 3)
  {
    ValidatedEmailIsClean(b.email);
  }

  lemma ValidatedEmailIsClean(f: Option<string>)
    requires NonBlank(f) ==> MatchesEmailPattern(f.value)
    ensures KeepTrimmed(f).Some? ==> MatchesEmailPattern(KeepTrimmed(f).value)
  {
    if NonBlank(f) {
      MatchingEmailIsTrimmed(f.value);
    }
  }

  /** Rebuilding from a forwarded record forwards the same record: filtering and trimming are idempotent. */
  lemma BuildUpdateDataIdempotent(b: Body)
    ensures var u := BuildUpdateData(b);
            BuildUpdateData(Body(u.username, u.email, u.phoneNumber, u.avatarUrl)) == u
  {
    KeepTrimmedIdempotent(b.username);
    KeepTrimmedIdempotent(b.email);
    KeepTrimmedIdempotent(b.phoneNumber);
    KeepTrimmedIdempotent(b.avatarUrl);
  }

  lemma KeepTrimmedIdempotent(f: Option<string>)
    ensures KeepTrimmed(KeepTrimmed(f)) == KeepTrimmed(f)
  {
    if NonBlank(f) {
      TrimIdempotent(f.value);
    }
  }

  /**
    The email check sees the raw string: a valid address behind a leading blank is
    refused, though the trimmed value that would have been sent is well formed.
   */
  lemma PaddedEmailIsRefused(auth: string, e: string, backend: Result<string, string>)
    requires auth != ""
    requires e != [] && IsSpace(e[0]) && MatchesEmailPattern(e[1..])
    ensures Put(Some(auth), Ok(Body(None, Some(e), None, None)), backend)
            == Reply(Response(400, MessageBody("Invalid email format")), [])
  {
    MatchHasNoSpace(e[1..]);
    assert e[1..][0] == e[1];
    VisibleIsNonBlank(e, 1);
    LeadingSpaceNeverMatches(e);
    assert EmailInvalid(Body(None, Some(e), None, None));
  }

  /** One visible character is enough to pass `field.trim() !== ''`. */
  lemma VisibleIsNonBlank(e: string, k: int)
    requires 0 <= k < |e| && !IsSpace(e[k])
    ensures NonBlank(Some(e))
  {
    TrimBlank(e);
  }

  /** `[^\s@]+` must start the match, so a leading blank defeats the pattern. */
  lemma LeadingSpaceNeverMatches(e: string)
    requires e != [] && IsSpace(e[0])
    ensures !MatchesEmailPattern(e)
  {
    forall i, j | 0 <= i < |e| && 0 <= j < |e|
      ensures !EmailSplit(e, i, j)
    {
      if 0 < i {
        assert e[..i][0] == e[0];
      }
    }
  }

  /** Without a header the answer is 401, whatever the body and the backend would say. */
  lemma AuthorizationComesFirst(body1: Result<Body, string>, body2: Result<Body, string>,
                                backend1: Result<string, string>, backend2: Result<string, string>)
    ensures Put(None, body1, backend1) == Put(None, body2, backend2)
    ensures Put(None, body1, backend1).response.status == 401
  {
  }

  /** A blank-only body, even with a malformed email and a one-letter username, is refused without a call. */
  lemma BlankFieldsAreIgnored(auth: string, backend: Result<string, string>)
    requires auth != ""
    ensures var b := Body(Some("  "), Some(""), None, Some("\t"));
            Put(Some(auth), Ok(b), backend) == Reply(Response(400, MessageBody("No fields to update")), [])
  {
    var b := Body(Some("  "), Some(""), None, Some("\t"));
    TrimBlank("  ");
    TrimBlank("");
    TrimBlank("\t");
  }
}

=== FILE: timeline.dfy ===
/**
  The pure state updaters of the `useChat` hook: how the per-conversation message
  timelines and the conversation summaries change on each push event and on each
  history page, and the two derived views the renderer reads.

  Every function here is the body of one React `set*` updater: it takes the previous
  state and returns the next one.
 */
module Timeline {
  import opened Common

  type MessageId = int
  type ConversationId = int
  type UserId = int
  /** Creation and activity times; the hook copies them but never compares them. */
  type Timestamp = int

  datatype Attachment = Attachment(url: string, mediaKind: string, fileName: string)

  datatype Message = Message(
    id: MessageId,
    conversationId: ConversationId,
    senderId: UserId,
    content: Option<string>,
    attachment: Option<Attachment>,
    createdAt: Timestamp,
    isEdited: bool)

  datatype Member = Member(id: UserId, name: string, isOnline: bool, lastActive: Timestamp)

  /** A conversation summary; `members` is absent when the backend sent no roster. */
  datatype Conversation = Conversation(
    id: ConversationId,
    name: string,
    lastMessage: Option<Message>,
    updatedAt: Timestamp,
    members: Option<seq<Member>>)

  /** The `messages` state: conversation id to its timeline, oldest first. */
  type Timelines = map<ConversationId, seq<Message>>

  /** The two pieces of hook state that push events touch. */
  datatype ChatData = ChatData(messages: Timelines, conversations: seq<Conversation>)

  /** A `ReceiveMessage` payload: the backend sends one message or an array of them. */
  datatype Payload = Single(message: Message) | Batch(messages: seq<Message>)

  // ---------------------------------------------------------------------------
  // Vocabulary
  // ---------------------------------------------------------------------------

  /** `prev[c] || []`: an absent timeline reads as the empty one. */
  function ListOf(msgs: Timelines, c: ConversationId): seq<Message>
  {
    if c in msgs then msgs[c] else []
  }

  predicate HasId(list: seq<Message>, id: MessageId)
  {
    exists i :: 0 <= i < |list| && list[i].id == id
  }

  predicate UniqueIds(list: seq<Message>)
  {
    forall i, j :: 0 <= i < j < |list| ==> list[i].id != list[j].id
  }

  /** Every timeline of the map is free of duplicate ids. */
  predicate AllUnique(msgs: Timelines)
  {
    forall c :: c in msgs ==> UniqueIds(msgs[c])
  }

  /** Only the timeline of `c` may differ, and `c` is the only key that may appear. */
  predicate OthersUnchanged(before: Timelines, after: Timelines, c: ConversationId)
  {
    && after.Keys == before.Keys + {c}
    && forall k :: k in before && k != c ==> after[k] == before[k]
  }

  predicate AscendingByTime(list: seq<Message>)
  {
    forall i, j :: 0 <= i < j < |list| ==> list[i].createdAt <= list[j].createdAt
  }

  predicate NewestFirst(list: seq<Message>)
  {
    forall i, j :: 0 <= i < j < |list| ==> list[i].createdAt >= list[j].createdAt
  }

  function Reverse<T>(s: seq<T>): (r: seq<T>)
    ensures |r| == |s|
    ensures forall i :: 0 <= i < |s| ==> r[i] == s[|s| - 1 - i]
  {
    if s == [] then [] else Reverse(s[1..]) + [s[0]]
  }

  lemma {:induction false} ReverseConcat<T>(a: seq<T>, b: seq<T>)
    ensures Reverse(a + b) == Reverse(b) + Reverse(a)
  {
    if a == [] {
      assert a + b == b;
    } else {
      assert (a + b)[1..] == a[1..] + b;
      ReverseConcat(a[1..], b);
    }
  }

  // ---------------------------------------------------------------------------
  // handleReceiveMessage
  // ---------------------------------------------------------------------------

  /** The `setMessages` updater for one received message: skip a known id, else append. */
  function AppendIfNew(msgs: Timelines, m: Message): (r: Timelines)
    ensures OthersUnchanged(msgs, r, m.conversationId)
    ensures HasId(ListOf(msgs, m.conversationId), m.id) ==> r == msgs
    ensures !HasId(ListOf(msgs, m.conversationId), m.id) ==>
              var before := ListOf(msgs, m.conversationId);
              var after := ListOf(r, m.conversationId);
              && |after| == |before| + 1
              && after[..|before|] == before
              && after[|before|] == m
    ensures HasId(ListOf(r, m.conversationId), m.id)
  {
    var list := ListOf(msgs, m.conversationId);
    if HasId(list, m.id) then msgs
    else
      var list' := list + [m];
      assert list'[|list|].id == m.id;
      msgs[m.conversationId := list']
  }

  /** The summary a received message leaves behind. */
  function WithLastMessage(conv: Conversation, m: Message): Conversation
  {
    conv.(lastMessage := Some(m), updatedAt := m.createdAt)
  }

  /** The `setConversations` updater for one received message. */
  function TouchSummaries(convs: seq<Conversation>, m: Message): (r: seq<Conversation>)
    ensures |r| == |convs|
    ensures forall i :: 0 <= i < |convs| && convs[i].id == m.conversationId ==>
              r[i] == WithLastMessage(convs[i], m)
    ensures forall i :: 0 <= i < |convs| && convs[i].id != m.conversationId ==>
              r[i] == convs[i]
  {
    if convs == [] then []
    else
      var head := if convs[0].id == m.conversationId then WithLastMessage(convs[0], m) else convs[0];
      [head] + TouchSummaries(convs[1..], m)
  }

  /** Both updaters queued for one message of the payload. */
  function ReceiveOne(s: ChatData, m: Message): ChatData
  {
    ChatData(AppendIfNew(s.messages, m), TouchSummaries(s.conversations, m))
  }

  /** The `forEach` over the messages of a payload, applied in order. */
  function ReceiveAll(s: ChatData, ms: seq<Message>): ChatData
    decreases |ms|
  {
    if ms == [] then s else ReceiveAll(ReceiveOne(s, ms[0]), ms[1..])
  }

  /** The messages of a payload: an array is taken as is, anything else is wrapped. */
  function PayloadMessages(p: Payload): seq<Message>
  {
    match p
    case Single(m) => [m]
    case Batch(ms) => ms
  }

  /**
    `handleReceiveMessage(messageData)`: nothing already shown is lost or reordered, the id
    of every received message is present in its conversation's timeline afterwards (a
    message whose id is already there does not replace the stored copy), and the summary
    list keeps its length.
   */
  function HandleReceiveMessage(s: ChatData, p: Payload): (r: ChatData)
    ensures |r.conversations| == |s.conversations|
    ensures forall c :: ListOf(s.messages, c) <= ListOf(r.messages, c)
    ensures forall m :: m in PayloadMessages(p) ==> HasId(ListOf(r.messages, m.conversationId), m.id)
  {
    ReceiveAllGrows(s, PayloadMessages(p));
    ReceiveAll(s, PayloadMessages(p))
  }

  lemma HasIdPrefix(a: seq<Message>, b: seq<Message>, id: MessageId)
    requires a <= b && HasId(a, id)
    ensures HasId(b, id)
  {
    var k :| 0 <= k < |a| && a[k].id == id;
    assert b[k] == a[k];
  }

  /** One received message keeps every timeline as a prefix and leaves its id present. */
  lemma ReceiveOneGrows(s: ChatData, m: Message)
    ensures forall c :: ListOf(s.messages, c) <= ListOf(ReceiveOne(s, m).messages, c)
    ensures HasId(ListOf(ReceiveOne(s, m).messages, m.conversationId), m.id)
  {
    var r := AppendIfNew(s.messages, m);
    forall c
      ensures ListOf(s.messages, c) <= ListOf(r, c)
    {
      if c == m.conversationId && !HasId(ListOf(s.messages, c), m.id) {
        var before := ListOf(s.messages, c);
        assert ListOf(r, c)[..|before|] == before;
      }
    }
  }

  lemma {:induction false} ReceiveAllGrows(s: ChatData, ms: seq<Message>)
    ensures forall c :: ListOf(s.messages, c) <= ListOf(ReceiveAll(s, ms).messages, c)
    ensures forall m :: m in ms ==> HasId(ListOf(ReceiveAll(s, ms).messages, m.conversationId), m.id)
    ensures |ReceiveAll(s, ms).conversations| == |s.conversations|
    decreases |ms|
  {
    if ms != [] {
      var m := ms[0];
      var s' := ReceiveOne(s, m);
      var r := ReceiveAll(s, ms);
      assert r == ReceiveAll(s', ms[1..]);
      ReceiveOneGrows(s, m);
      ReceiveAllGrows(s', ms[1..]);
      forall c
        ensures ListOf(s.messages, c) <= ListOf(r.messages, c)
      {
        assert ListOf(s.messages, c) <= ListOf(s'.messages, c);
        assert ListOf(s'.messages, c) <= ListOf(r.messages, c);
      }
      forall x | x in ms
        ensures HasId(ListOf(r.messages, x.conversationId), x.id)
      {
        if x !in ms[1..] {
          assert x == m;
          HasIdPrefix(ListOf(s'.messages, m.conversationId), ListOf(r.messages, m.conversationId), m.id);
        }
      }
    }
  }

  lemma ReceiveSingle(s: ChatData, m: Message)
    ensures HandleReceiveMessage(s, Single(m)) == ReceiveOne(s, m)
  {
    assert [m][1..] == [];
    assert ReceiveAll(s, [m]) == ReceiveAll(ReceiveOne(s, m), []);
  }

  /** A known id leaves the whole message map unchanged, though the summaries are still bumped. */
  lemma ReceiveDuplicate(s: ChatData, m: Message)
    requires HasId(ListOf(s.messages, m.conversationId), m.id)
    ensures HandleReceiveMessage(s, Single(m)).messages == s.messages
    ensures HandleReceiveMessage(s, Single(m)).conversations == TouchSummaries(s.conversations, m)
  {
    ReceiveSingle(s, m);
  }

  /** A new id lands at the tail of its timeline; no other timeline changes. */
  lemma ReceiveNew(s: ChatData, m: Message)
    requires !HasId(ListOf(s.messages, m.conversationId), m.id)
    ensures ListOf(HandleReceiveMessage(s, Single(m)).messages, m.conversationId)
            == ListOf(s.messages, m.conversationId) + [m]
    ensures OthersUnchanged(s.messages, HandleReceiveMessage(s, Single(m)).messages, m.conversationId)
  {
    ReceiveSingle(s, m);
    var after := ListOf(AppendIfNew(s.messages, m), m.conversationId);
    assert after == ListOf(s.messages, m.conversationId) + [m];
  }

  lemma TouchIdempotent(convs: seq<Conversation>, m: Message)
    ensures TouchSummaries(TouchSummaries(convs, m), m) == TouchSummaries(convs, m)
  {
  }

  /** Receiving the same message twice has the effect of receiving it once. */
  lemma ReceiveIdempotent(s: ChatData, m: Message)
    ensures HandleReceiveMessage(HandleReceiveMessage(s, Single(m)), Single(m))
            == HandleReceiveMessage(s, Single(m))
  {
    ReceiveSingle(s, m);
    ReceiveSingle(ReceiveOne(s, m), m);
    TouchIdempotent(s.conversations, m);
  }

  /** Processing a concatenated payload is processing its parts one after the other. */
  lemma {:induction false} ReceiveAllConcat(s: ChatData, a: seq<Message>, b: seq<Message>)
    ensures ReceiveAll(s, a + b) == ReceiveAll(ReceiveAll(s, a), b)
    decreases |a|
  {
    if a == [] {
      assert a + b == b;
    } else {
      assert (a + b)[1..] == a[1..] + b;
      ReceiveAllConcat(ReceiveOne(s, a[0]), a[1..], b);
    }
  }

  /** A batch payload has the effect of receiving each of its messages in order. */
  lemma ReceiveBatchIsSequential(s: ChatData, m: Message, ms: seq<Message>)
    ensures HandleReceiveMessage(s, Batch([m] + ms))
            == HandleReceiveMessage(HandleReceiveMessage(s, Single(m)), Batch(ms))
  {
    ReceiveAllConcat(s, [m], ms);
  }

  /** Receiving keeps every timeline free of duplicate ids. */
  lemma {:induction false} ReceivePreservesUnique(s: ChatData, ms: seq<Message>)
    requires AllUnique(s.messages)
    ensures AllUnique(ReceiveAll(s, ms).messages)
    decreases |ms|
  {
    if ms != [] {
      var m := ms[0];
      var s' := ReceiveOne(s, m);
      forall c | c in s'.messages
        ensures UniqueIds(s'.messages[c])
      {
        if c == m.conversationId && !HasId(ListOf(s.messages, c), m.id) {
          var list := ListOf(s.messages, c);
          assert s'.messages[c] == list + [m];
        }
      }
      ReceivePreservesUnique(s', ms[1..]);
    }
  }

  /**
    Fresh messages of one conversation end up in arrival order at the tail: the hook
    appends and never sorts by creation time.
   */
  lemma {:induction false} ReceiveInArrivalOrder(s: ChatData, c: ConversationId, ms: seq<Message>)
    requires forall i :: 0 <= i < |ms| ==> ms[i].conversationId == c
    requires UniqueIds(ListOf(s.messages, c) + ms)
    ensures ListOf(ReceiveAll(s, ms).messages, c) == ListOf(s.messages, c) + ms
    decreases |ms|
  {
    if ms != [] {
      var before, m, rest := ListOf(s.messages, c), ms[0], ms[1..];
      HeadIsFresh(before, ms);
      AppendNewToList(s.messages, m);
      var s' := ReceiveOne(s, m);
      assert ms == [m] + rest;
      AppendThenConcat(before, m, rest);
      forall i | 0 <= i < |rest|
        ensures rest[i].conversationId == c
      {
        assert rest[i] == ms[i + 1];
      }
      ReceiveInArrivalOrder(s', c, rest);
      assert ReceiveAll(s, ms) == ReceiveAll(s', rest);
    }
  }

  lemma HeadIsFresh(before: seq<Message>, ms: seq<Message>)
    requires ms != [] && UniqueIds(before + ms)
    ensures !HasId(before, ms[0].id)
  {
    forall k | 0 <= k < |before|
      ensures before[k].id != ms[0].id
    {
      assert (before + ms)[k] == before[k];
      assert (before + ms)[|before|] == ms[0];
    }
  }

  lemma AppendThenConcat<T>(a: seq<T>, x: T, b: seq<T>)
    ensures a + [x] + b == a + ([x] + b)
  {
  }

  lemma AppendNewToList(msgs: Timelines, m: Message)
    requires !HasId(ListOf(msgs, m.conversationId), m.id)
    ensures ListOf(AppendIfNew(msgs, m), m.conversationId) == ListOf(msgs, m.conversationId) + [m]
  {
  }

  /** Two messages arriving newest first stay newest first: the timeline is not time-ordered. */
  lemma ArrivalOrderIsNotTimeOrder()
    ensures
      var early := Message(1, 7, 0, Some("first"), None, 100, false);
      var late := Message(2, 7, 0, Some("second"), None, 200, false);
      var s := ChatData(map[], []);
      var after := ListOf(HandleReceiveMessage(s, Batch([late, early])).messages, 7);
      after == [late, early] && !AscendingByTime(after)
  {
    var early := Message(1, 7, 0, Some("first"), None, 100, false);
    var late := Message(2, 7, 0, Some("second"), None, 200, false);
    var s := ChatData(map[], []);
    ReceiveInArrivalOrder(s, 7, [late, early]);
    var after := ListOf(HandleReceiveMessage(s, Batch([late, early])).messages, 7);
    assert after[0].createdAt > after[1].createdAt;
  }

  // ---------------------------------------------------------------------------
  // handleMessageUpdated
  // ---------------------------------------------------------------------------

  /** `list.map(m => m.id === message.id ? message : m)`. */
  function ReplaceById(list: seq<Message>, m: Message): (r: seq<Message>)
    ensures |r| == |list|
    ensures forall i :: 0 <= i < |list| ==> r[i] == (if list[i].id == m.id then m else list[i])
  {
    if list == [] then []
    else [if list[0].id == m.id then m else list[0]] + ReplaceById(list[1..], m)
  }

  /** `handleMessageUpdated(message)`: replace in place in its conversation's timeline. */
  function HandleMessageUpdated(msgs: Timelines, m: Message): (r: Timelines)
    ensures OthersUnchanged(msgs, r, m.conversationId)
    ensures m.conversationId in r
    ensures var before := ListOf(msgs, m.conversationId);
            var after := r[m.conversationId];
            && |after| == |before|
            && forall i :: 0 <= i < |before| ==> after[i] == (if before[i].id == m.id then m else before[i])
  {
    msgs[m.conversationId := ReplaceById(ListOf(msgs, m.conversationId), m)]
  }

  /** An update for an id that is not in the timeline changes no message. */
  lemma UpdateUnknownIdKeepsContents(msgs: Timelines, m: Message)
    requires !HasId(ListOf(msgs, m.conversationId), m.id)
    ensures HandleMessageUpdated(msgs, m)[m.conversationId] == ListOf(msgs, m.conversationId)
  {
    var before := ListOf(msgs, m.conversationId);
    var after := HandleMessageUpdated(msgs, m)[m.conversationId];
    forall i | 0 <= i < |before|
      ensures after[i] == before[i]
    {
      assert before[i].id != m.id;
    }
  }

  /** Applying the same update twice is applying it once. */
  lemma UpdateIdempotent(msgs: Timelines, m: Message)
    ensures HandleMessageUpdated(HandleMessageUpdated(msgs, m), m) == HandleMessageUpdated(msgs, m)
  {
    var once := HandleMessageUpdated(msgs, m);
    var twice := HandleMessageUpdated(once, m);
    assert twice[m.conversationId] == once[m.conversationId];
  }

  /** Updating keeps the sequence of ids, so it keeps every timeline duplicate-free. */
  lemma UpdatePreservesUnique(msgs: Timelines, m: Message)
    requires AllUnique(msgs)
    ensures AllUnique(HandleMessageUpdated(msgs, m))
  {
    var r := HandleMessageUpdated(msgs, m);
    var before := ListOf(msgs, m.conversationId);
    var after := r[m.conversationId];
    forall i | 0 <= i < |before|
      ensures after[i].id == before[i].id
    {
    }
  }

  // ---------------------------------------------------------------------------
  // handleMessageDeleted
  // ---------------------------------------------------------------------------

  /** `list.filter(m => m.id !== id)`. */
  function RemoveId(list: seq<Message>, id: MessageId): (r: seq<Message>)
    ensures forall x :: x in r <==> x in list && x.id != id
    ensures |r| <= |list|
    ensures !HasId(list, id) ==> r == list
  {
    if list == [] then []
    else
      var rest := RemoveId(list[1..], id);
      assert !HasId(list, id) ==> !HasId(list[1..], id) by {
        if HasId(list[1..], id) {
          var k :| 0 <= k < |list[1..]| && list[1..][k].id == id;
          assert list[k + 1].id == id;
        }
      }
      assert list == [list[0]] + list[1..];
      if list[0].id == id then rest else [list[0]] + rest
  }

  /** Filtering keeps the relative order: it distributes over concatenation. */
  lemma {:induction false} RemoveIdConcat(a: seq<Message>, b: seq<Message>, id: MessageId)
    ensures RemoveId(a + b, id) == RemoveId(a, id) + RemoveId(b, id)
  {
    if a == [] {
      assert a + b == b;
    } else {
      assert (a + b)[1..] == a[1..] + b;
      assert (a + b)[0] == a[0];
      RemoveIdConcat(a[1..], b, id);
    }
  }

  /** `handleMessageDeleted(messageId, conversationId)`. */
  function HandleMessageDeleted(msgs: Timelines, messageId: MessageId, conversationId: ConversationId): (r: Timelines)
    ensures OthersUnchanged(msgs, r, conversationId)
    ensures conversationId in r
    ensures forall x :: x in r[conversationId] <==> x in ListOf(msgs, conversationId) && x.id != messageId
    ensures !HasId(ListOf(msgs, conversationId), messageId) ==> r[conversationId] == ListOf(msgs, conversationId)
  {
    msgs[conversationId := RemoveId(ListOf(msgs, conversationId), messageId)]
  }

  /** After a delete no message of that id is left in the conversation. */
  lemma DeleteRemovesId(msgs: Timelines, messageId: MessageId, conversationId: ConversationId)
    ensures !HasId(HandleMessageDeleted(msgs, messageId, conversationId)[conversationId], messageId)
  {
    var after := HandleMessageDeleted(msgs, messageId, conversationId)[conversationId];
    forall k | 0 <= k < |after|
      ensures after[k].id != messageId
    {
      assert after[k] in after;
    }
  }

  /** Deleting the same id twice is deleting it once. */
  lemma DeleteIdempotent(msgs: Timelines, messageId: MessageId, conversationId: ConversationId)
    ensures var once := HandleMessageDeleted(msgs, messageId, conversationId);
            HandleMessageDeleted(once, messageId, conversationId) == once
  {
    DeleteRemovesId(msgs, messageId, conversationId);
  }

  /** A delete for an absent id still materialises an empty timeline for an absent key. */
  lemma DeleteOnMissingKeyCreatesEmpty(msgs: Timelines, messageId: MessageId, conversationId: ConversationId)
    requires conversationId !in msgs
    ensures HandleMessageDeleted(msgs, messageId, conversationId) == msgs[conversationId := []]
  {
  }

  lemma {:induction false} RemoveIdSubset(list: seq<Message>, id: MessageId)
    requires UniqueIds(list)
    ensures UniqueIds(RemoveId(list, id))
  {
    if list != [] {
      RemoveIdSubset(list[1..], id);
      var rest := RemoveId(list[1..], id);
      if list[0].id != id {
        forall j | 0 <= j < |rest|
          ensures rest[j].id != list[0].id
        {
          assert rest[j] in list[1..];
          var k :| 0 <= k < |list[1..]| && list[1..][k] == rest[j];
          assert list[k + 1] == rest[j];
        }
        assert RemoveId(list, id) == [list[0]] + rest;
      }
    }
  }

  /** Deleting keeps every timeline duplicate-free. */
  lemma {:induction false} DeletePreservesUnique(msgs: Timelines, messageId: MessageId, conversationId: ConversationId)
    requires AllUnique(msgs)
    ensures AllUnique(HandleMessageDeleted(msgs, messageId, conversationId))
  {
    RemoveIdSubset(ListOf(msgs, conversationId), messageId);
  }

  // ---------------------------------------------------------------------------
  // handleUserOnlineStatusChanged
  // ---------------------------------------------------------------------------

  function PatchMember(member: Member, userId: UserId, isOnline: bool, lastActive: Timestamp): Member
  {
    if member.id == userId then member.(isOnline := isOnline, lastActive := lastActive) else member
  }

  function PatchRoster(members: seq<Member>, userId: UserId, isOnline: bool, lastActive: Timestamp): (r: seq<Member>)
    ensures |r| == |members|
    ensures forall j :: 0 <= j < |members| ==> r[j] == PatchMember(members[j], userId, isOnline, lastActive)
  {
    if members == [] then []
    else [PatchMember(members[0], userId, isOnline, lastActive)] + PatchRoster(members[1..], userId, isOnline, lastActive)
  }

  function PatchConversation(conv: Conversation, userId: UserId, isOnline: bool, lastActive: Timestamp): Conversation
  {
    match conv.members
    case None => conv
    case Some(ms) => conv.(members := Some(PatchRoster(ms, userId, isOnline, lastActive)))
  }

  /** `handleUserOnlineStatusChanged(userId, isOnline, lastActive)`: patch every roster entry of that user. */
  function HandleUserOnlineStatusChanged(convs: seq<Conversation>, userId: UserId, isOnline: bool, lastActive: Timestamp)
    : (r: seq<Conversation>)
    ensures |r| == |convs|
    ensures forall i :: 0 <= i < |convs| ==> r[i].(members := convs[i].members) == convs[i]
    ensures forall i :: 0 <= i < |convs| ==> (r[i].members.None? <==> convs[i].members.None?)
    ensures forall i :: 0 <= i < |convs| && convs[i].members.Some? ==>
              |r[i].members.value| == |convs[i].members.value|
  {
    if convs == [] then []
    else [PatchConversation(convs[0], userId, isOnline, lastActive)]
         + HandleUserOnlineStatusChanged(convs[1..], userId, isOnline, lastActive)
  }

  /** Each roster entry is the old entry, patched exactly when it is that user's. */
  lemma {:induction false} OnlineStatusPatchesEntries(convs: seq<Conversation>, userId: UserId, isOnline: bool, lastActive: Timestamp,
                                   i: int, j: int)
    requires 0 <= i < |convs| && convs[i].members.Some? && 0 <= j < |convs[i].members.value|
    ensures var r := HandleUserOnlineStatusChanged(convs, userId, isOnline, lastActive);
            var before := convs[i].members.value[j];
            var after := r[i].members.value[j];
            && after.id == before.id && after.name == before.name
            && (before.id == userId ==> after.isOnline == isOnline && after.lastActive == lastActive)
            && (before.id != userId ==> after == before)
  {
    OnlineStatusIsPointwise(convs, userId, isOnline, lastActive, i);
  }

  lemma {:induction false} OnlineStatusIsPointwise(convs: seq<Conversation>, userId: UserId, isOnline: bool,
                                                    lastActive: Timestamp, i: int)
    requires 0 <= i < |convs|
    ensures HandleUserOnlineStatusChanged(convs, userId, isOnline, lastActive)[i]
            == PatchConversation(convs[i], userId, isOnline, lastActive)
    decreases i
  {
    var rest := HandleUserOnlineStatusChanged(convs[1..], userId, isOnline, lastActive);
    assert HandleUserOnlineStatusChanged(convs, userId, isOnline, lastActive)
           == [PatchConversation(convs[0], userId, isOnline, lastActive)] + rest;
    if i > 0 {
      OnlineStatusIsPointwise(convs[1..], userId, isOnline, lastActive, i - 1);
    }
  }

  /** A user in no roster leaves the summaries as they were. */
  lemma OnlineStatusOfStrangerIsNoOp(convs: seq<Conversation>, userId: UserId, isOnline: bool, lastActive: Timestamp)
    requires forall i, j :: 0 <= i < |convs| && convs[i].members.Some? && 0 <= j < |convs[i].members.value|
               ==> convs[i].members.value[j].id != userId
    ensures HandleUserOnlineStatusChanged(convs, userId, isOnline, lastActive) == convs
  {
    var r := HandleUserOnlineStatusChanged(convs, userId, isOnline, lastActive);
    forall i | 0 <= i < |convs|
      ensures r[i] == convs[i]
    {
      OnlineStatusIsPointwise(convs, userId, isOnline, lastActive, i);
      if convs[i].members.Some? {
        var ms := convs[i].members.value;
        assert PatchRoster(ms, userId, isOnline, lastActive) == ms;
      }
    }
  }

  // ---------------------------------------------------------------------------
  // loadMessages: applying one fetched page
  // ---------------------------------------------------------------------------

  /**
    The `setMessages` updater of `loadMessages(conversationId, page)` once the page
    (newest first) has arrived: page 1 replaces the timeline, any other page is put in
    front of it, in both cases reversed to oldest first.
   */
  function ApplyPage(msgs: Timelines, c: ConversationId, page: int, data: seq<Message>): (r: Timelines)
    ensures OthersUnchanged(msgs, r, c)
    ensures c in r
    ensures page == 1 ==> r[c] == Reverse(data)
    ensures page != 1 ==> r[c] == Reverse(data) + ListOf(msgs, c)
  {
    var reversed := Reverse(data);
    if page == 1 then msgs[c := reversed] else msgs[c := reversed + ListOf(msgs, c)]
  }

  /** Loading page 1 and then page 2 leaves the reverse of the whole newest-first stream. */
  lemma {:induction false} TwoPagesReverseTheStream(msgs: Timelines, c: ConversationId, p1: seq<Message>, p2: seq<Message>)
    ensures ApplyPage(ApplyPage(msgs, c, 1, p1), c, 2, p2)[c] == Reverse(p1 + p2)
  {
    ReverseConcat(p1, p2);
  }

  /** A newest-first page becomes an oldest-first timeline. */
  lemma PageOneIsAscending(msgs: Timelines, c: ConversationId, data: seq<Message>)
    requires NewestFirst(data)
    ensures AscendingByTime(ApplyPage(msgs, c, 1, data)[c])
  {
    var r := ApplyPage(msgs, c, 1, data)[c];
    forall i, j | 0 <= i < j < |r|
      ensures r[i].createdAt <= r[j].createdAt
    {
      assert r[i] == data[|data| - 1 - i];
      assert r[j] == data[|data| - 1 - j];
    }
  }

  /** Pages that overlap at the boundary leave the shared message twice: nothing deduplicates. */
  lemma OverlappingPagesDuplicate()
    ensures
      var m := Message(5, 1, 0, None, None, 10, false);
      var after := ApplyPage(ApplyPage(map[], 1, 1, [m]), 1, 2, [m])[1];
      after == [m, m] && !UniqueIds(after)
  {
    var m := Message(5, 1, 0, None, None, 10, false);
    var after := ApplyPage(ApplyPage(map[], 1, 1, [m]), 1, 2, [m])[1];
    assert after[0].id == after[1].id;
  }

  // ---------------------------------------------------------------------------
  // Derived views
  // ---------------------------------------------------------------------------

  /** `messages[activeConversationId] || []`. */
  function ActiveMessages(msgs: Timelines, active: Option<ConversationId>): (r: seq<Message>)
    ensures active.None? || active.value !in msgs ==> r == []
    ensures active.Some? && active.value in msgs ==> r == msgs[active.value]
  {
    match active
    case None => []
    case Some(c) => ListOf(msgs, c)
  }

  /** Writing any timeline other than the active one leaves the active view as it was. */
  lemma ActiveViewIgnoresOtherTimelines(msgs: Timelines, active: Option<ConversationId>,
                                        c: ConversationId, list: seq<Message>)
    requires active != Some(c)
    ensures ActiveMessages(msgs[c := list], active) == ActiveMessages(msgs, active)
  {
  }

  /**
    A live message of the active conversation shows at the end of the view unless its id
    is already shown; a message of any other conversation leaves the view alone.
   */
  lemma ActiveViewAfterReceive(s: ChatData, active: Option<ConversationId>, m: Message)
    ensures var before := ActiveMessages(s.messages, active);
            var after := ActiveMessages(HandleReceiveMessage(s, Single(m)).messages, active);
            && (active == Some(m.conversationId) && !HasId(before, m.id) ==> after == before + [m])
            && (active == Some(m.conversationId) && HasId(before, m.id) ==> after == before)
            && (active != Some(m.conversationId) ==> after == before)
  {
    ReceiveSingle(s, m);
    var list := ListOf(s.messages, m.conversationId);
    var r := AppendIfNew(s.messages, m);
    if !HasId(list, m.id) {
      assert ListOf(r, m.conversationId) == list + [m];
    }
  }

  /** An edit in the active conversation is replaced in place in the view; others leave it alone. */
  lemma ActiveViewAfterUpdate(msgs: Timelines, active: Option<ConversationId>, m: Message)
    ensures var before := ActiveMessages(msgs, active);
            var after := ActiveMessages(HandleMessageUpdated(msgs, m), active);
            && (active == Some(m.conversationId) ==> after == ReplaceById(before, m))
            && (active != Some(m.conversationId) ==> after == before)
  {
  }

  /** A delete in the active conversation removes exactly that id from the view; others leave it alone. */
  lemma ActiveViewAfterDelete(msgs: Timelines, active: Option<ConversationId>,
                              messageId: MessageId, c: ConversationId)
    ensures var before := ActiveMessages(msgs, active);
            var after := ActiveMessages(HandleMessageDeleted(msgs, messageId, c), active);
            && (active == Some(c) ==> after == RemoveId(before, messageId))
            && (active != Some(c) ==> after == before)
  {
  }

  ghost predicate FirstWithId(convs: seq<Conversation>, id: ConversationId, i: int)
  {
    && 0 <= i < |convs|
    && convs[i].id == id
    && forall j :: 0 <= j < i ==> convs[j].id != id
  }

  /** `conversations.find(conv => conv.id === id)`. */
  function FindConversation(convs: seq<Conversation>, id: ConversationId): (r: Option<Conversation>)
    ensures r.None? <==> forall i :: 0 <= i < |convs| ==> convs[i].id != id
    ensures r.Some? ==> exists i :: FirstWithId(convs, id, i) && convs[i] == r.value
  {
    if convs == [] then None
    else if convs[0].id == id then
      assert FirstWithId(convs, id, 0);
      Some(convs[0])
    else
      var rest := FindConversation(convs[1..], id);
      if rest.Some? then
        assert exists i :: FirstWithId(convs, id, i) && convs[i] == rest.value by {
          var k :| FirstWithId(convs[1..], id, k) && convs[1..][k] == rest.value;
          assert FirstWithId(convs, id, k + 1);
        }
        rest
      else
        assert forall i :: 1 <= i < |convs| ==> convs[i] == convs[1..][i - 1];
        rest
  }

  /** `activeConversation`: the first summary whose id is the active one; none when no id is active. */
  function ActiveConversation(convs: seq<Conversation>, active: Option<ConversationId>): (r: Option<Conversation>)
    ensures active.None? ==> r.None?
    ensures r.Some? ==> r.value in convs && active == Some(r.value.id)
    ensures active.Some? && r.None? ==> forall i :: 0 <= i < |convs| ==> convs[i].id != active.value
    ensures active.Some? && r.Some? ==> exists i :: FirstWithId(convs, active.value, i) && convs[i] == r.value
  {
    match active
    case None => None
    case Some(c) => FindConversation(convs, c)
  }

  /** `createConversation`'s updater: the new summary goes in front. */
  function PrependConversation(convs: seq<Conversation>, conv: Conversation): seq<Conversation>
  {
    [conv] + convs
  }

  /** A created conversation is the one the active view finds for its id, even over an older entry. */
  lemma CreatedConversationIsFound(convs: seq<Conversation>, conv: Conversation)
    ensures ActiveConversation(PrependConversation(convs, conv), Some(conv.id)) == Some(conv)
    ensures |PrependConversation(convs, conv)| == |convs| + 1
  {
    var r := FindConversation(PrependConversation(convs, conv), conv.id);
    var k :| FirstWithId(PrependConversation(convs, conv), conv.id, k) && PrependConversation(convs, conv)[k] == r.value;
    assert k == 0;
  }
}
